=== FILE: README.md ===
# Incremental snapshot backup (floder.py), modelled in Dafny

`floder.py` backs up a source folder into a destination folder. Each run:

1. creates a snapshot directory `backup_<YYYY-MM-DD_HH-MM-SS>`;
2. walks the source, mirrors every directory into the snapshot, and copies each file that is new or changed. A file is new or changed when it has no counterpart under `latest`, or when it is newer or differs in size;
3. replaces `latest` with a full copy of the snapshot;
4. optionally writes `<snapshot>.zip`;
5. rotates: it sorts the `backup_*` directories by name and removes all but the newest `keep`, each together with its `.zip`.

A dry run changes nothing and reports what a real run would copy and skip.

The model has these parts:

- **Destination.** The destination root is a map from child name to entry. An entry is one of:
  - a directory tree, possibly reached through a symbolic link;
  - a zip archive, given as its map from member name to bytes;
  - any other file.
- **Source.** The source is a tree: the relative paths of its directories and a map from each file's relative path to its metadata (mtime, size, bytes).
- **Specifications.** Each step has a pure specification:
  - `SnapshotBuilder.BackupSpec` and `SnapshotBuilder.LatestSpec`;
  - `Archiver.CompressSpec`;
  - `Retention.RotateSpec`;
  - `Pipeline.RunSpec` for the whole of `main`.
- **Imperative model.** The class `BackupTool.Destination` holds the destination as a field. It performs the same steps one change at a time: the walk loop, the copy loop, the zip loop, the sort, and the removal loop. Every method is proved equal to its specification.

Failures are modelled where the Python code raises. In each case the exception ends the run, and the state it leaves is part of the specification:

- `mkdir` on a name that is not a directory;
- `rmtree` on a regular file at `latest`;
- `rmtree` on a link or on a vanished snapshot;
- `unlink` on an archive name that is a directory;
- opening a zip over a directory.

Some consequences of the code are easy to miss, and the model proves them:

- **Errors.** `floder.py` has no `try` anywhere (lines 36-160), so the first exception ends the run. The model's `Failed` report and `Aborted` outcome capture this stop at the first exception for the failures it models: the `mkdir` of a snapshot name held by a regular file, the pointer update over a regular file at `latest`, the removal of an old snapshot or its archive, and opening a zip over a directory. Failing copies are not modelled (see Left out).
- **What `latest` holds.** Line 88 copies the snapshot to `latest`, and a snapshot holds only the files its run copied (line 73). So over an unchanged source, consecutive runs alternate: the second copies what the first skipped (`Pipeline.ConsecutiveRunsAlternate`). A user might expect `latest` to be a full mirror of the source; it is not.
- **Dry-run rotation preview.** In a dry run the snapshot is never created (line 43), and rotation still runs (line 158) but removes nothing (lines 120 and 127). So dry-run rotation selects among the existing snapshots only (`Pipeline.DryRunChangesNothing`). A real run selects among those plus the new one (`Pipeline.CompletedRunFacts`). When the run's snapshot name is new and the backup completes, with a positive `keep` and more than `keep` snapshots, the preview therefore names one snapshot fewer than the real run removes. A rerun within the same second reuses an existing snapshot directory (line 44 tolerates it), so no candidate is added and both select the same names; a real run that aborts before rotation removes nothing.
- **`keep`.** Lines 113-117 accept any integer. `keep == 0` removes nothing, because `backups[:-0]` is empty. A negative `keep` removes the oldest `-keep` snapshots, or all of them when there are fewer.

## Model

| member | source | states |
|---|---|---|
| ChangeDetector.FileChanged | floder.py:29-33 | a file is changed when it has no counterpart, when its size differs, or when it is strictly newer; same size and not newer means unchanged |
| ChangeDetector.CopyIsUnchanged | floder.py:33 | a file compared with an exact copy of itself (what `copy2` leaves) is not changed |
| ChangeDetector.ContentBlind | floder.py:33 | same size and not newer counts as unchanged whatever the bytes are |
| SnapshotNames.SnapshotName | floder.py:37-38 | the snapshot name starts with `backup_`, has fixed length 26, is never `latest`, and never ends in `.zip` |
| SnapshotNames.NameOrderIsChronological | floder.py:37-38 | for valid times, one snapshot name sorts before another exactly when its time is earlier |
| SnapshotNames.ClockOrder | floder.py:37 | times of day compare as their `%H-%M-%S` renderings |
| SnapshotNames.Format | floder.py:37 | the `%Y-%m-%d_%H-%M-%S` rendering is 19 characters long and ends in a digit |
| SnapshotNames.NamesDistinct | floder.py:37-38 | different times give different snapshot names |
| SnapshotBuilder.WalkDirs | floder.py:52 | `os.walk` visits the top directory and every sub-directory and nothing else; in a well-formed tree each visited sub-directory's parent is visited too |
| SnapshotBuilder.FilesIn | floder.py:52-59 | the files listed for a directory are exactly the source files directly inside it; in a well-formed tree a directory that lists files is one the walk visits |
| SnapshotBuilder.Reference | floder.py:50 | there is a reference tree exactly when `latest` is a directory or a link to one; a regular file at `latest` exists but counts as no reference, since no path below it exists |
| SnapshotBuilder.ReferenceMeta | floder.py:62-67 | a file has a counterpart exactly when there is a reference tree holding that relative path, and the counterpart's metadata is the one stored there (what `dest_file.exists()` at line 31 tests) |
| SnapshotBuilder.ChangedPaths | floder.py:64-69 | the copied files are source files; with no `latest` every file is copied, as is every file without a counterpart |
| SnapshotBuilder.ShouldCopy | floder.py:64-69 | a file without a counterpart under `latest` is copied; one with a counterpart is copied exactly when it is strictly newer or its size differs |
| SnapshotBuilder.SkippedPaths | floder.py:74-75 | the skipped files are disjoint from the copied ones, and each has a counterpart under `latest` |
| SnapshotBuilder.CountsCoverSource | floder.py:46-75 | `copied_files + skipped_files` equals the number of source files |
| SnapshotBuilder.CopiedFiles | floder.py:69-73 | exactly the changed files among those given are copied, each with the source's metadata |
| SnapshotBuilder.Mirror | floder.py:52-73 | the snapshot holds its earlier directories plus every source directory; its files are the earlier ones plus the changed ones; changed files carry the source's metadata and others are kept |
| SnapshotBuilder.BackupSpec | floder.py:36-90 | a dry run changes nothing. A real run stops exactly when the snapshot name is held by a non-directory (`mkdir` fails, root unchanged) or `latest` is a regular file (`rmtree` fails, the snapshot stays). Otherwise the snapshot is the mirror over whatever a reused directory of that name held, keeping its link flag, and `latest` becomes a plain copy of it. The counts are those of the changed and skipped files. Nothing but the snapshot and `latest` changes |
| SnapshotBuilder.LatestSpec | floder.py:80-88 | the update fails exactly when `latest` is a regular file; otherwise `latest` becomes a plain directory equal to the snapshot, and on failure nothing changes |
| SnapshotBuilder.FreshSnapshotContents | floder.py:36-88 | a fresh snapshot holds exactly the source's directories and the changed files, and `latest` is an identical plain directory |
| SnapshotBuilder.NextRunCopiesWhatWasSkipped | floder.py:50-88 | against the `latest` a run leaves behind, an unchanged source's changed and skipped files swap roles |
| FileSystem.ZipName | floder.py:94 | the archive name is the snapshot name followed by exactly `.zip` |
| Archiver.WalkedTree | floder.py:101 | walking a snapshot directory yields its tree; `os.walk` on a missing or non-directory name yields no directories and no files |
| Archiver.Members | floder.py:101-104 | the archive has one member per walked file, under its relative path, holding that file's bytes |
| Archiver.CompressSpec | floder.py:93-104 | a dry run writes nothing; writing fails exactly when `<name>.zip` is a directory; otherwise the zip holds one member per snapshot file with its bytes, and nothing else changes |
| Archiver.ArchiveLeavesSnapshot | floder.py:94 | the archive is never the snapshot itself, and archiving leaves the snapshot as it was |
| Retention.Candidates | floder.py:111 | the candidates are exactly the directories (or links to them) whose name starts with `backup_`, so never `latest` |
| Retention.SliceEnd | floder.py:117 | Python's slice `[:stop]` ends at `stop` clamped to the length for a non-negative stop, and at `len + stop` clamped at 0 for a negative one |
| Retention.RemoveCount | floder.py:113-117 | with positive `keep`, all but the newest `keep`; with zero, none; with negative `keep`, the first `-keep` or all |
| Retention.SelectForRemoval | floder.py:113-117 | the removal list is a prefix of the sorted list; with positive `keep` it leaves `min(len, keep)` behind; `keep == 0` selects nothing; a negative `keep` selects the first `min(len, -keep)` |
| Retention.Selection | floder.py:111-117 | the selection is strictly sorted, contains only candidates, and every selected name sorts before every candidate left out |
| Retention.KeepsNewest | floder.py:111-117 | with positive `keep`, the kept snapshots number `keep` or all of them, and every removed name sorts before every kept one |
| Retention.NewestIsKept | floder.py:111-117 | with positive `keep`, a snapshot newer than every other candidate is never selected |
| Retention.IsZipOf | floder.py:124 | a name is the archive of a listed snapshot exactly when it is that snapshot's name followed by `.zip` |
| Retention.Remaining | floder.py:118-128 | what is left after the removals: every entry but the selected names and their archives, unchanged |
| Retention.RemoveSnapshot | floder.py:118-128 | one removal changes at most the snapshot and its archive, and only removes |
| Retention.RemoveAll | floder.py:118-128 | whether or not the loop completes, it only removes entries, and every entry that is neither a listed name nor the archive of one stays unchanged |
| Retention.RemoveAllStops | floder.py:118-128 | once a removal raises, the later names are never reached |
| Retention.DryRunRemovesNothing | floder.py:120-128 | the dry-run removal loop neither changes nor fails |
| Retention.RemoveAllOutcome | floder.py:118-128 | the removal loop over a sorted list completes exactly when no name is blocked, and then leaves the remaining entries |
| Retention.RotateSpec | floder.py:109-128 | a dry run neither changes nor fails; otherwise rotation completes exactly when no selected snapshot is blocked, and then removes exactly the selection and its archives |
| Retention.Blocked | floder.py:118-128 | a selected name blocks a real removal exactly when removing it fails: `rmtree` at line 121 raises when the name is not a real directory (a link or gone), and `unlink` at line 128 raises when `<name>.zip` is a real directory |
| Pipeline.RunSpec | floder.py:144-160 | a missing source changes nothing and is reported as such; a dry run changes nothing and completes; a completed run reports the snapshot name and the counts of changed and skipped files |
| Pipeline.AfterBackup | floder.py:153-160 | after the backup step: an aborted backup fails the run; the run completes exactly when the backup, the optional archive and rotation all succeed, and then reports the snapshot name, the counters and the rotation's selection |
| Pipeline.ArchiveStep | floder.py:155-156 | without archiving or in a dry run nothing changes; otherwise it fails exactly when `<name>.zip` is a directory and on success leaves an archive there; no other entry changes |
| Pipeline.DryRunChangesNothing | floder.py:131-160 | a dry run leaves the destination unchanged and reports the real counts and the rotation preview over the existing snapshots |
| Pipeline.FreshSnapshotBeforeRotation | floder.py:153-156 | before rotation the new snapshot and `latest` hold the mirrored tree, and the candidates gain exactly the new snapshot |
| Pipeline.CandidatesGain | floder.py:111 | adding one new snapshot directory adds exactly it to the candidates |
| Pipeline.RotationSpares | floder.py:109-128 | a completed rotation never touches `latest`, and with positive `keep` it spares a snapshot newer than all others |
| Pipeline.CompletedRunFacts | floder.py:131-160 | after a completed real run with a new name, `latest` holds the mirrored tree, rotation chose among the old snapshots plus the new one, and a newest snapshot survives rotation equal to `latest` |
| Pipeline.ConsecutiveRunsAlternate | floder.py:131-160 | over an unchanged source, the run after a completed real run copies as many files as that run skipped, and skips as many as it copied |
| Pipeline.ChronologicalRetention | floder.py:109-117 | with positive `keep`, every removed snapshot was created before every kept one |
| NameOrder.Below | floder.py:111 | Python's `str <`: `a < b` exactly when at the first position where they differ `a` has the smaller code point, or `a` is a proper prefix of `b` |
| NameOrder.Insert | floder.py:111 | inserting into a strictly sorted list keeps it strictly sorted and adds exactly the new name |
| NameOrder.SortedUnique | floder.py:111 | there is only one strictly sorted list of a given set of names, so `sorted` is determined |
| NameOrder.SortedList | floder.py:111 | the sorted listing of a set of names is strictly sorted and has exactly those names |
| BackupTool.Destination.IncrementalBackup | floder.py:36-90 | returns the snapshot name and the counters, and leaves the destination and outcome equal to `SnapshotBuilder.BackupSpec` |
| BackupTool.Destination.WalkSource | floder.py:52-75 | the walk counts the changed and skipped files; a dry run changes nothing, otherwise the snapshot becomes the mirror of the source |
| BackupTool.Destination.WalkDirectories | floder.py:52-57 | after visiting every directory, every file has been tallied and every directory and changed file is in the snapshot |
| BackupTool.Destination.CopyDirectory | floder.py:53-75 | one directory of the walk: it is created, and its files are tallied and copied |
| BackupTool.Destination.CopyFiles | floder.py:59-75 | the file loop of one directory tallies each file and copies exactly the changed ones |
| BackupTool.Destination.VisitFile | floder.py:60-75 | a file is copied exactly when it is changed, with the source's metadata |
| BackupTool.Destination.UpdateLatest | floder.py:80-88 | leaves the destination and outcome equal to `SnapshotBuilder.LatestSpec` |
| BackupTool.Destination.CompressBackup | floder.py:93-106 | leaves the destination and outcome equal to `Archiver.CompressSpec`; its `zip` out-parameter is the name logged at line 95, since `compress_backup` itself returns nothing |
| BackupTool.Destination.SortedSnapshots | floder.py:111 | the listing is strictly sorted and holds exactly the rotation candidates |
| BackupTool.Destination.SelectBackups | floder.py:111-117 | returns exactly `Retention.Selection` |
| BackupTool.Destination.RotateBackups | floder.py:109-128 | returns `Retention.Selection`, and leaves the destination and outcome equal to `Retention.RotateSpec` |
| BackupTool.Destination.RemoveBackups | floder.py:118-128 | the removal loop leaves the destination and outcome equal to `Retention.RemoveAll` |
| BackupTool.Destination.RemoveBackup | floder.py:118-128 | one iteration of the removal loop leaves the destination and outcome equal to `Retention.RemoveSnapshot` |
| BackupTool.Destination.Run | floder.py:131-160 | the whole run leaves the destination and gives the report equal to `Pipeline.RunSpec` |

## Left out

- **Logging.** Logging and the log file are not modelled: `setup_logger` and every `logger` call only report and change nothing the model keeps.
- **Argument parsing.** `argparse` is not modelled; the options are the parameters of `Run`.
- **The destination-root `mkdir`.** The `mkdir` of the destination root (line 151) is not modelled. The model starts from an existing destination.
- **The clock.** The time is a parameter, restricted to four-digit years and valid field ranges. `datetime.now()` itself is not modelled.
- **Modification times.** A float `st_mtime` is abstracted to an integer; only its order matters. `copy2` is assumed to keep the mtime exactly. On a filesystem with coarser timestamps the copy's mtime can be rounded down, and the source then looks newer; `ChangeDetector.CopyIsUnchanged` and `Pipeline.ConsecutiveRunsAlternate` do not cover that case.
- **The zip format.** DEFLATE and the zip container are not modelled; an archive is its map from member name to bytes.
- **Order.** The walk order and the listing order are not modelled. The loops visit directories, files and children in an arbitrary order, and the proofs hold for every order.
- **Filesystem failures.** Permissions, disk-full, and files vanishing or changing during the walk are not modelled.
- **Dangling symbolic links.** These are not modelled: a link is always to an existing directory.
- **A directory in `latest` where the source has a file.** The model copies such a file, as if it had no counterpart, because `latest` keeps metadata only for files. Python sees the directory as existing (line 31) and compares the file with the directory's own mtime and size (line 33). So it skips the file when the sizes match and the source is not newer.
- **Type conflicts inside an existing snapshot.** A file in one run and a directory in the next, within a snapshot reused in the same second, are not modelled: a path is added to the directory set or the file map independently.
- **Concurrency and crash atomicity.** Neither is modelled; a run is a sequence of whole steps.
- **Other file metadata.** Metadata such as permissions is not modelled; `copy2` preserves only mtime, size and bytes here.
- **Source and destination are disjoint.** The model assumes this. `floder.py` never checks it, and when the destination lies inside the source, the walk at line 52 also visits `latest` and the snapshot being built (line 44). That case is not modelled.

=== FILE: archiver.dfy ===
/**
 * Specification of the archiver (`compress_backup`): the name of the zip
 * file and the entries it holds. The DEFLATE encoding and the zip container
 * are not modelled; an archive is its map from entry name to stored bytes.
 */
module Archiver {
  import opened FileSystem
  import opened SnapshotBuilder

  /**
   * The tree `os.walk(backup_folder)` finds: the snapshot's tree when it is
   * a directory, and nothing at all otherwise (the walk swallows the error).
   */
  function WalkedTree(root: Root, name: string): (t: Tree)
    ensures name in root && root[name].Dir? ==> t == root[name].tree
    ensures !(name in root && root[name].Dir?) ==> t.dirs == {} && t.files == map[]
  {
    match DirTree(root, name)
    case Some(t) => t
    case None => EmptyTree
  }

  /** The archive's members: each walked file written under its path relative to the snapshot (line 104). */
  function Members(t: Tree): (m: map<Path, Bytes>)
    ensures m.Keys == t.files.Keys
    ensures forall p :: p in m ==> m[p] == t.files[p].content
  {
    map p | p in t.files :: t.files[p].content
  }

  /**
   * `compress_backup(backup_folder, dry_run)`.
   *  - Dry run: nothing is written.
   *  - Opening `<name>.zip` for writing fails when that name is a directory.
   *  - Otherwise the zip (created, or truncated if it existed) holds one entry
   *    per snapshot file, named by its path relative to the snapshot, with
   *    the file's bytes; no other entry of the destination changes.
   */
  function CompressSpec(root: Root, name: string, dryRun: bool): (out: Progress)
    ensures dryRun ==> out == Progress(root, true)
    ensures !dryRun ==> (out.ok <==> !(ZipName(name) in root && root[ZipName(name)].Dir?))
    ensures out.ok && !dryRun ==>
      && ZipName(name) in out.root && out.root[ZipName(name)].Archive?
      && out.root[ZipName(name)].members.Keys == WalkedTree(root, name).files.Keys
      && forall p :: p in WalkedTree(root, name).files ==>
           out.root[ZipName(name)].members[p] == WalkedTree(root, name).files[p].content
    ensures SameExcept(out.root, root, {ZipName(name)})
  {
    var zip := ZipName(name);
    if dryRun then
      Progress(root, true)
    else if zip in root && root[zip].Dir? then
      Progress(root, false)
    else
      Progress(root[zip := Archive(Members(WalkedTree(root, name)))], true)
  }

  /**
   * Archiving leaves the snapshot itself as it was: the archive is a sibling
   * named `<name>.zip`, never the snapshot directory.
   */
  lemma ArchiveLeavesSnapshot(root: Root, name: string, dryRun: bool)
    ensures ZipName(name) != name
    ensures name in CompressSpec(root, name, dryRun).root <==> name in root
    ensures name in root ==> CompressSpec(root, name, dryRun).root[name] == root[name]
  {
    assert |ZipName(name)| != |name|;
  }
}

=== FILE: backuptool.dfy ===
/**
 * The backup tool's filesystem operations over a destination root. Each
 * method does what its Python counterpart does, step by step, and is proved
 * to leave exactly the state its specification function describes.
 */
module BackupTool {
  import opened FileSystem
  import opened NameOrder
  import opened SnapshotNames
  import opened ChangeDetector
  import opened SnapshotBuilder
  import opened Archiver
  import opened Retention
  import opened Pipeline

  /** The files of `src` that `os.walk` lists while visiting the directories `ds`. */
  ghost function FilesUnder(src: Tree, ds: set<Path>): set<Path>
  {
    set p | p in src.files && |p| > 0 && Parent(p) in ds
  }

  /**
   * A snapshot tree `t` after the walk has mirrored the directories `dirs`
   * and considered the files `among` for copying.
   */
  ghost function Grow(t: Tree, src: Tree, reference: Option<Tree>, dirs: set<Path>, among: set<Path>): Tree
  {
    Tree(t.dirs + (dirs - {[]}), t.files + CopiedFiles(src, reference, among))
  }

  // Proof helpers (verification cost): instance facts Dafny proves unaided,
  // stated separately only as hints to the solver, not as model properties.

  /** `mkdir` of one more walked directory: the root of the walk is the snapshot itself. */
  lemma GrowDir(t: Tree, src: Tree, reference: Option<Tree>, dirs: set<Path>, among: set<Path>, dir: Path)
    ensures var g := Grow(t, src, reference, dirs, among);
      Grow(t, src, reference, dirs + {dir}, among) == if dir == [] then g else Tree(g.dirs + {dir}, g.files)
  {
  }

  /** Before the walk, the snapshot is the tree it started from. */
  lemma GrowNothing(t: Tree, src: Tree, reference: Option<Tree>)
    ensures Grow(t, src, reference, {}, {}) == t
  {
    assert CopiedFiles(src, reference, {}) == map[];
    assert t.files + map[] == t.files;
  }

  /** Considering one more file: it is written when it is to be copied. */
  lemma GrowFile(t: Tree, src: Tree, reference: Option<Tree>, dirs: set<Path>, among: set<Path>, file: Path)
    requires file in src.files
    ensures var g := Grow(t, src, reference, dirs, among);
      Grow(t, src, reference, dirs, among + {file})
        == if ShouldCopy(src, reference, file) then Tree(g.dirs, g.files[file := src.files[file]]) else g
  {
    var g := Grow(t, src, reference, dirs, among);
    if ShouldCopy(src, reference, file) {
      assert CopiedFiles(src, reference, among + {file}) == CopiedFiles(src, reference, among)[file := src.files[file]];
    } else {
      assert CopiedFiles(src, reference, among + {file}) == CopiedFiles(src, reference, among);
    }
  }

  /** The whole walk is the mirror of the source. */
  lemma GrowAll(t: Tree, src: Tree, reference: Option<Tree>)
    requires WellFormed(src)
    ensures Grow(t, src, reference, WalkDirs(src), src.files.Keys) == Mirror(t, src, reference)
  {
    assert WalkDirs(src) - {[]} == src.dirs;
  }

  /** A second write to the same entry replaces the first. */
  lemma UpdateTwice<K, V>(m: map<K, V>, k: K, a: V, b: V)
    ensures m[k := a][k := b] == m[k := b]
  {
  }

  /** Moving one element from the work list to the done set. */
  lemma TakeOne<T>(all: set<T>, done: set<T>, left: set<T>, x: T)
    requires left <= all && done == all - left && x in left
    ensures left - {x} <= all && done + {x} == all - (left - {x}) && x !in done
  {
  }

  lemma UnionEmpty<T>(a: set<T>)
    ensures a + {} == a
  {
  }

  lemma UnionAssoc<T>(a: set<T>, b: set<T>, c: set<T>)
    ensures a + b + c == a + (b + c)
  {
  }

  /** Moving one element from the work list, when only the members of `sel` are kept. */
  lemma TakeOneOf<T>(all: set<T>, sel: set<T>, left: set<T>, x: T)
    requires sel <= all && left <= all && x in left
    ensures x in sel ==> (sel - left) + {x} == sel - (left - {x})
    ensures x !in sel ==> sel - left == sel - (left - {x})
  {
  }

  /** An empty work list means everything is done. */
  lemma TakeAll<T>(all: set<T>, done: set<T>, left: set<T>)
    requires done == all - left && left == {}
    ensures done == all
  {
  }

  /**
   * `c` and `s` count the elements of `visited` inside and outside `changed`:
   * the copied and the skipped files.
   */
  predicate Tally<T>(visited: set<T>, changed: set<T>, c: int, s: int)
  {
    c == |visited * changed| && s == |visited - changed|
  }

  lemma TallyStep<T>(visited: set<T>, changed: set<T>, c: int, s: int, x: T)
    requires Tally(visited, changed, c, s) && x !in visited
    ensures Tally(visited + {x}, changed, if x in changed then c + 1 else c, if x in changed then s else s + 1)
  {
    if x in changed {
      assert (visited + {x}) * changed == visited * changed + {x};
      assert (visited + {x}) - changed == visited - changed;
    } else {
      assert (visited + {x}) * changed == visited * changed;
      assert (visited + {x}) - changed == visited - changed + {x};
    }
  }

  /** Over all the files, the counts are the sizes of the two groups. */
  lemma TallyAll<T>(all: set<T>, changed: set<T>, c: int, s: int)
    requires changed <= all && Tally(all, changed, c, s)
    ensures c == |changed| && s == |all - changed|
  {
    assert all * changed == changed;
  }

  /** Counting over two disjoint groups adds up. */
  lemma TallySplit<T>(a: set<T>, b: set<T>, changed: set<T>, c1: int, s1: int, c2: int, s2: int)
    requires a !! b && Tally(a, changed, c1, s1) && Tally(b, changed, c2, s2)
    ensures Tally(a + b, changed, c1 + c2, s1 + s2)
  {
    assert (a + b) * changed == a * changed + b * changed;
    assert (a * changed) !! (b * changed);
    assert (a + b) - changed == (a - changed) + (b - changed);
    assert (a - changed) !! (b - changed);
  }

  /** The files of one more directory join those already walked. */
  lemma FilesUnderStep(src: Tree, done: set<Path>, dir: Path)
    requires dir !in done
    ensures FilesUnder(src, done + {dir}) == FilesUnder(src, done) + FilesIn(src, dir)
    ensures FilesUnder(src, done) !! FilesIn(src, dir)
  {
  }

  /** Once every directory is walked, every file has been seen. */
  lemma FilesUnderAll(src: Tree)
    requires WellFormed(src)
    ensures FilesUnder(src, WalkDirs(src)) == src.files.Keys
  {
  }

  /** The destination directory: the only state the tool changes. */
  class Destination {
    var entries: Root

    constructor (initial: Root)
      ensures entries == initial
    {
      entries := initial;
    }

    /**
     * `incremental_backup(source, destination, dry_run)`, with the
     * timestamp given rather than read from the clock. Returns the snapshot
     * name and the two counters; `ok` is false when an exception escaped.
     */
    method IncrementalBackup(source: Tree, stamp: Timestamp, dryRun: bool)
      returns (name: string, copied: nat, skipped: nat, ok: bool)
      requires WellFormed(source) && ValidTimestamp(stamp)
      modifies this
      ensures name == SnapshotName(stamp)
      ensures var out := BackupSpec(old(entries), source, name, dryRun);
        && entries == out.root
        && ok == out.Built?
        && (ok ==> copied == out.copied && skipped == out.skipped)
    {
      name := SnapshotName(stamp);
      if !dryRun {
        if name in entries && !entries[name].Dir? {
          // the snapshot creation at line 44 raises on a name held by a non-directory
          return name, 0, 0, false;
        }
        if name !in entries {
          entries := entries[name := Dir(EmptyTree, false)];
        }
      }
      var reference := Reference(entries);
      assert reference == Reference(old(entries));
      copied, skipped := WalkSource(name, source, reference, dryRun);
      if dryRun {
        return name, copied, skipped, true;
      }
      ghost var base := if name in old(entries) then old(entries)[name].tree else EmptyTree;
      ghost var link := name in old(entries) && old(entries)[name].isLink;
      ghost var built := Dir(Mirror(base, source, reference), link);
      if name !in old(entries) {
        UpdateTwice(old(entries), name, Dir(EmptyTree, false), built);
      }
      assert entries == old(entries)[name := built];
      ok := UpdateLatest(name);
    }

    /**
     * The `os.walk` loop of `incremental_backup`: every directory of the
     * source is mirrored into the snapshot `name` and every changed file is
     * copied there.
     */
    method WalkSource(name: string, source: Tree, reference: Option<Tree>, dryRun: bool)
      returns (copied: nat, skipped: nat)
      requires WellFormed(source)
      requires !dryRun ==> name in entries && entries[name].Dir?
      modifies this
      ensures copied == |ChangedPaths(source, reference)|
      ensures skipped == |SkippedPaths(source, reference)|
      ensures dryRun ==> entries == old(entries)
      ensures !dryRun ==> entries == old(entries)[name :=
        Dir(Mirror(old(entries)[name].tree, source, reference), old(entries)[name].isLink)]
    {
      ghost var t0 := if dryRun then EmptyTree else entries[name].tree;
      ghost var link := !dryRun && entries[name].isLink;
      GrowNothing(t0, source, reference);
      assert !dryRun ==> entries == entries[name := Dir(t0, link)];
      copied, skipped := WalkDirectories(name, source, reference, dryRun,
                                         ChangedPaths(source, reference), old(entries), t0, link);
      FilesUnderAll(source);
      TallyAll(source.files.Keys, ChangedPaths(source, reference), copied, skipped);
      GrowAll(t0, source, reference);
    }

    /**
     * The directories of the walk, in no particular order. The ghost
     * parameters describe the snapshot in a real run: `start` with the
     * snapshot's tree `t0` (behind a link when `link`).
     */
    method WalkDirectories(name: string, source: Tree, reference: Option<Tree>, dryRun: bool,
                           ghost changed: set<Path>, ghost start: Root, ghost t0: Tree, ghost link: bool)
      returns (copied: nat, skipped: nat)
      requires changed == ChangedPaths(source, reference)
      requires entries == if dryRun then start
        else start[name := Dir(Grow(t0, source, reference, {}, {}), link)]
      modifies this
      ensures Tally(FilesUnder(source, WalkDirs(source)), changed, copied, skipped)
      ensures entries == if dryRun then start
        else start[name := Dir(Grow(t0, source, reference, WalkDirs(source), FilesUnder(source, WalkDirs(source))), link)]
    {
      copied, skipped := 0, 0;
      ghost var done: set<Path> := {};
      ghost var visited: set<Path> := {};
      var dirsLeft := WalkDirs(source);
      while dirsLeft != {}
        invariant dirsLeft <= WalkDirs(source) && done == WalkDirs(source) - dirsLeft
        invariant visited == FilesUnder(source, done)
        invariant Tally(visited, changed, copied, skipped)
        invariant entries == if dryRun then start
          else start[name := Dir(Grow(t0, source, reference, done, visited), link)]
        decreases |dirsLeft|
      {
        var dir :| dir in dirsLeft;
        var c, s := CopyDirectory(name, source, dir, reference, dryRun, changed, start, t0, link, done, visited);
        FilesUnderStep(source, done, dir);
        TallySplit(visited, FilesIn(source, dir), changed, copied, skipped, c, s);
        TakeOne(WalkDirs(source), done, dirsLeft, dir);
        copied, skipped := copied + c, skipped + s;
        done, visited := done + {dir}, visited + FilesIn(source, dir);
        dirsLeft := dirsLeft - {dir};
      }
      TakeAll(WalkDirs(source), done, dirsLeft);
    }

    /**
     * One directory of the walk: `mkdir` its mirror in the snapshot, then
     * copy each of its files that is new or changed and count the rest. The
     * ghost parameters describe the snapshot so far: in a real run, `start`
     * with the snapshot's tree `t0` (behind a link when `link`) grown by the
     * directories `done` and the files `visited`.
     */
    method CopyDirectory(name: string, source: Tree, dir: Path, reference: Option<Tree>, dryRun: bool,
                         ghost changed: set<Path>, ghost start: Root, ghost t0: Tree, ghost link: bool,
                         ghost done: set<Path>, ghost visited: set<Path>)
      returns (copied: nat, skipped: nat)
      requires changed == ChangedPaths(source, reference)
      requires entries == if dryRun then start
        else start[name := Dir(Grow(t0, source, reference, done, visited), link)]
      modifies this
      ensures Tally(FilesIn(source, dir), changed, copied, skipped)
      ensures entries == if dryRun then start
        else start[name := Dir(Grow(t0, source, reference, done + {dir}, visited + FilesIn(source, dir)), link)]
    {
      if !dryRun {
        ghost var g := Grow(t0, source, reference, done, visited);
        GrowDir(t0, source, reference, done, visited, dir);
        if dir != [] {
          // the directory creation at line 57
          var t := entries[name].tree;
          UpdateTwice(start, name, Dir(g, link), Dir(Tree(t.dirs + {dir}, t.files), link));
          entries := entries[name := entries[name].(tree := Tree(t.dirs + {dir}, t.files))];
        }
      }
      copied, skipped := CopyFiles(name, source, FilesIn(source, dir), reference, dryRun,
                                   changed, start, t0, link, done + {dir}, visited);
    }

    /**
     * The inner loop over the files `os.walk` lists in one directory, in no
     * particular order.
     */
    method CopyFiles(name: string, source: Tree, files: set<Path>, reference: Option<Tree>, dryRun: bool,
                     ghost changed: set<Path>, ghost start: Root, ghost t0: Tree, ghost link: bool,
                     ghost dirs: set<Path>, ghost visited: set<Path>)
      returns (copied: nat, skipped: nat)
      requires files <= source.files.Keys
      requires forall p :: p in files ==> (p in changed <==> p in ChangedPaths(source, reference))
      requires entries == if dryRun then start
        else start[name := Dir(Grow(t0, source, reference, dirs, visited), link)]
      modifies this
      ensures Tally(files, changed, copied, skipped)
      ensures entries == if dryRun then start
        else start[name := Dir(Grow(t0, source, reference, dirs, visited + files), link)]
    {
      copied, skipped := 0, 0;
      ghost var done: set<Path> := {};
      var filesLeft := files;
      UnionEmpty(visited);
      while filesLeft != {}
        invariant filesLeft <= files && done == files - filesLeft
        invariant Tally(done, changed, copied, skipped)
        invariant entries == if dryRun then start
          else start[name := Dir(Grow(t0, source, reference, dirs, visited + done), link)]
        decreases |filesLeft|
      {
        var file :| file in filesLeft;
        var copy := VisitFile(name, source, file, reference, dryRun, start, t0, link, dirs, visited + done);
        TallyStep(done, changed, copied, skipped, file);
        if copy {
          copied := copied + 1;
        } else {
          skipped := skipped + 1;
        }
        TakeOne(files, done, filesLeft, file);
        UnionAssoc(visited, done, {file});
        done := done + {file};
        filesLeft := filesLeft - {file};
      }
      TakeAll(files, done, filesLeft);
    }

    /**
     * The loop body for one file: look up its counterpart under `latest`,
     * and `copy2` it into the snapshot when it is new or changed.
     */
    method VisitFile(name: string, source: Tree, file: Path, reference: Option<Tree>, dryRun: bool,
                     ghost start: Root, ghost t0: Tree, ghost link: bool,
                     ghost dirs: set<Path>, ghost visited: set<Path>)
      returns (copy: bool)
      requires file in source.files
      requires entries == if dryRun then start
        else start[name := Dir(Grow(t0, source, reference, dirs, visited), link)]
      modifies this
      ensures copy <==> file in ChangedPaths(source, reference)
      ensures entries == if dryRun then start
        else start[name := Dir(Grow(t0, source, reference, dirs, visited + {file}), link)]
    {
      copy := reference.None? || FileChanged(source.files[file], ReferenceMeta(reference, file));
      if !dryRun {
        ghost var g := Grow(t0, source, reference, dirs, visited);
        GrowFile(t0, source, reference, dirs, visited, file);
        if copy {
          // the metadata-preserving copy at line 73
          var t := entries[name].tree;
          UpdateTwice(start, name, Dir(g, link), Dir(Tree(t.dirs, t.files[file := source.files[file]]), link));
          entries := entries[name := entries[name].(tree := Tree(t.dirs, t.files[file := source.files[file]]))];
        }
      }
    }

    /**
     * The latest-pointer update at the end of `incremental_backup`: remove
     * `latest`, then `copytree` the snapshot to it.
     */
    method UpdateLatest(name: string) returns (ok: bool)
      requires name in entries && entries[name].Dir? && name != LatestName
      modifies this
      ensures var out := LatestSpec(old(entries), name);
        entries == out.root && ok == out.ok
    {
      if LatestName in entries {
        if !entries[LatestName].Dir? {
          // shutil.rmtree on a regular file raises NotADirectoryError
          return false;
        }
        // a link is unlinked, a directory removed with rmtree: either way it is gone
        entries := entries - {LatestName};
      }
      entries := entries[LatestName := Dir(entries[name].tree, false)];
      ok := true;
    }

    /**
     * `compress_backup(backup_folder, dry_run)`: writes `<name>.zip` with one
     * entry per file of the snapshot.
     */
    method CompressBackup(name: string, dryRun: bool) returns (zip: string, ok: bool)
      modifies this
      ensures zip == ZipName(name)
      ensures var out := CompressSpec(old(entries), name, dryRun);
        entries == out.root && ok == out.ok
    {
      zip := name + ZipSuffix;
      if dryRun {
        return zip, true;
      }
      if zip in entries && entries[zip].Dir? {
        // zipfile.ZipFile(zip_name, "w") raises IsADirectoryError
        return zip, false;
      }
      entries := entries[zip := Archive(map[])];
      assert |zip| != |name|;
      var tree := WalkedTree(entries, name);
      assert tree == WalkedTree(old(entries), name);
      var filesLeft := tree.files.Keys;
      while filesLeft != {}
        invariant filesLeft <= tree.files.Keys
        invariant entries == old(entries)[zip := Archive(
          map p | p in tree.files.Keys - filesLeft :: tree.files[p].content)]
        decreases |filesLeft|
      {
        var file :| file in filesLeft;
        assert (map p | p in tree.files.Keys - (filesLeft - {file}) :: tree.files[p].content)
          == (map p | p in tree.files.Keys - filesLeft :: tree.files[p].content)[file := tree.files[file].content];
        // the archive write at line 104
        entries := entries[zip := Archive(entries[zip].members[file := tree.files[file].content])];
        filesLeft := filesLeft - {file};
      }
      assert tree.files.Keys - filesLeft == tree.files.Keys;
      ok := true;
    }

    /**
     * The sorted candidate listing of line 111: the directory listing comes
     * in no particular order, and each child that is a directory with the
     * `backup_` prefix is put in its sorted place.
     */
    method SortedSnapshots() returns (backups: seq<string>)
      ensures StrictlySorted(backups)
      ensures Elements(backups) == Candidates(entries)
    {
      backups := [];
      var left := entries.Keys;
      while left != {}
        invariant left <= entries.Keys
        invariant StrictlySorted(backups)
        invariant Elements(backups) == Candidates(entries) - left
        decreases |left|
      {
        var child :| child in left;
        TakeOneOf(entries.Keys, Candidates(entries), left, child);
        if entries[child].Dir? && StartsWith(child, SnapshotPrefix) {
          backups := Insert(child, backups);
        }
        left := left - {child};
      }
      TakeAll(Candidates(entries), Elements(backups), left);
    }

    /**
     * `rotate_backups(destination, keep, dry_run)`: returns the names it
     * selected for removal; `ok` is false when an exception escaped.
     */
    method RotateBackups(keep: int, dryRun: bool) returns (removed: seq<string>, ok: bool)
      modifies this
      ensures removed == Selection(old(entries), keep)
      ensures var out := RotateSpec(old(entries), keep, dryRun);
        entries == out.root && ok == out.ok
    {
      removed := SelectBackups(keep);
      ok := RemoveBackups(removed, dryRun);
    }

    /**
     * The loop `for folder in remove_list`, which stops at the first
     * exception.
     */
    method RemoveBackups(list: seq<string>, dryRun: bool) returns (ok: bool)
      modifies this
      ensures var out := RemoveAll(old(entries), list, dryRun);
        entries == out.root && ok == out.ok
    {
      ok := true;
      var i := 0;
      while i < |list|
        invariant 0 <= i <= |list|
        invariant RemoveAll(old(entries), list[..i], dryRun) == Progress(entries, true)
      {
        assert list[..i + 1][..i] == list[..i];
        ok := RemoveBackup(list[i], dryRun);
        if !ok {
          RemoveAllStops(old(entries), list, i + 1, dryRun);
          return;
        }
        i := i + 1;
      }
      assert list[..i] == list;
    }

    /**
     * The selection step of `rotate_backups`: the sorted snapshot
     * directories, nothing when there are no more than `keep` of them, and
     * otherwise `backups[:-keep]`.
     */
    method SelectBackups(keep: int) returns (removed: seq<string>)
      ensures removed == Selection(entries, keep)
    {
      var backups := SortedSnapshots();
      SortedUnique(backups, SortedList(Candidates(entries)));
      if |backups| <= keep {
        // "No rotation needed."
        return [];
      }
      removed := backups[..SliceEnd(|backups|, -keep)];
    }

    /**
     * One iteration of the removal loop: `rmtree` the snapshot directory,
     * then `unlink` its archive when one exists.
     */
    method RemoveBackup(folder: string, dryRun: bool) returns (ok: bool)
      modifies this
      ensures var out := RemoveSnapshot(old(entries), folder, dryRun);
        entries == out.root && ok == out.ok
    {
      if !dryRun {
        if !(folder in entries && IsRealDir(entries[folder])) {
          // shutil.rmtree raises: the folder is gone, a link, or not a directory
          return false;
        }
        entries := entries - {folder};
      }
      var zip := folder + ZipSuffix;
      if zip in entries {
        if !dryRun {
          if IsRealDir(entries[zip]) {
            // Path.unlink on a directory raises IsADirectoryError
            return false;
          }
          entries := entries - {zip};
        }
      }
      ok := true;
    }

    /**
     * `main` after argument parsing: abort when the source is missing, then
     * back up, optionally archive, and rotate.
     */
    method Run(source: Option<Tree>, stamp: Timestamp, dryRun: bool, archive: bool, keep: int)
      returns (report: Report)
      requires source.Some? ==> WellFormed(source.value)
      requires ValidTimestamp(stamp)
      modifies this
      ensures var out := RunSpec(old(entries), source, stamp, dryRun, archive, keep);
        entries == out.root && report == out.report
    {
      if source.None? {
        // "Source folder does not exist!"
        return SourceMissing;
      }
      var name, copied, skipped, ok := IncrementalBackup(source.value, stamp, dryRun);
      if !ok {
        return Failed;
      }
      if archive {
        var _, archived := CompressBackup(name, dryRun);
        if !archived {
          return Failed;
        }
      }
      var removed, rotated := RotateBackups(keep, dryRun);
      if !rotated {
        return Failed;
      }
      report := Completed(name, copied, skipped, removed);
    }
  }
}

=== FILE: changedetector.dfy ===
/**
 * The change detector (`file_changed`): decides from metadata alone whether
 * a source file differs from its counterpart in the reference snapshot.
 */
module ChangeDetector {
  import opened FileSystem

  /**
   * `file_changed(src_file, dest_file)`: true when the reference file does
   * not exist, when the source is strictly newer, or when the sizes differ.
   */
  function FileChanged(src: FileMeta, reference: Option<FileMeta>): (changed: bool)
    ensures reference.None? ==> changed
    ensures reference.Some? && src.size != reference.value.size ==> changed
    ensures reference.Some? && src.size == reference.value.size && src.mtime <= reference.value.mtime ==> !changed
    ensures reference.Some? && src.mtime > reference.value.mtime ==> changed
  {
    reference.None? || src.mtime > reference.value.mtime || src.size != reference.value.size
  }

  /**
   * A copy that keeps modification time and size (what `copy2` does) is
   * seen as unchanged by the next comparison.
   */
  lemma CopyIsUnchanged(m: FileMeta)
    ensures !FileChanged(m, Some(m))
  {
  }

  /**
   * Contents are never read, so an edit that keeps the size and does not
   * advance the modification time goes unseen.
   */
  lemma ContentBlind(src: FileMeta, reference: FileMeta)
    requires src.size == reference.size && src.mtime <= reference.mtime
    ensures !FileChanged(src, Some(reference))
  {
  }
}

=== FILE: filesystem.dfy ===
/**
 * The abstract filesystem the backup tool works on.
 *
 * A source directory is a `Tree`: the relative paths of its sub-directories
 * and a map from the relative path of every regular file to its metadata.
 * The destination root is a map from the name of each immediate child to an
 * `Entry`: a directory tree (possibly reached through a symbolic link), a zip
 * archive written by the archiver, or any other regular file.
 */
module FileSystem {

  datatype Option<T> = None | Some(value: T)

  /** A path relative to some directory, one component per element. */
  type Path = seq<string>

  type Bytes = seq<bv8>

  /**
   * What `stat` and a copy observe of a regular file. The source's float
   * modification time is abstracted to an integer; only its order matters.
   */
  datatype FileMeta = FileMeta(mtime: int, size: nat, content: Bytes)

  /**
   * A directory tree. `dirs` holds the relative paths of the directories
   * strictly below the tree's root (the root itself is implicit);
   * `files` maps the relative path of every regular file to its metadata.
   */
  datatype Tree = Tree(dirs: set<Path>, files: map<Path, FileMeta>)

  const EmptyTree: Tree := Tree({}, map[])

  /** An immediate child of the destination root. */
  datatype Entry =
    | Dir(tree: Tree, isLink: bool)        // a directory, or a symbolic link resolving to one
    | Archive(members: map<Path, Bytes>)   // a zip file: entry name to stored bytes
    | Other                                // any other regular file

  /** The destination root: child name to entry. */
  type Root = map<string, Entry>

  const LatestName: string := "latest"
  const SnapshotPrefix: string := "backup_"
  const ZipSuffix: string := ".zip"

  predicate StartsWith(s: string, prefix: string)
  {
    |prefix| <= |s| && s[..|prefix|] == prefix
  }

  /** The sibling archive of a snapshot: the snapshot path with `.zip` appended. */
  function ZipName(name: string): (z: string)
    ensures |z| == |name| + |ZipSuffix| && z[..|name|] == name
    ensures z[|name|..] == ZipSuffix
  {
    name + ZipSuffix
  }

  /** `Path.is_dir()` and not `Path.is_symlink()`: a directory `rmtree` accepts. */
  predicate IsRealDir(e: Entry)
  {
    e.Dir? && !e.isLink
  }

  /** Two destination states that differ at most in the entries `changed`. */
  ghost predicate SameExcept(a: Root, b: Root, changed: set<string>)
  {
    forall k :: k !in changed ==> (k in a <==> k in b) && (k in a ==> a[k] == b[k])
  }

  /** `Path.is_dir()` for a child of the destination root. */
  function DirTree(root: Root, name: string): Option<Tree>
  {
    if name in root && root[name].Dir? then Some(root[name].tree) else None
  }
}

=== FILE: nameorder.dfy ===
/**
 * The order in which Python's `sorted` puts the snapshot directories:
 * `Path` objects with a common parent compare by their names, and names
 * compare lexicographically by code point.
 */
module NameOrder {

  /**
   * `a` and `b` agree on their first `k` characters, and at position `k`
   * either `a` has ended while `b` goes on, or `a` has the smaller code point.
   */
  predicate DecidedAt(a: string, b: string, k: nat)
  {
    k <= |a| && k < |b| && a[..k] == b[..k] && (k == |a| || a[k] < b[k])
  }

  /** `a < b` on Python strings: lexicographic by code point, a proper prefix first. */
  predicate Below(a: string, b: string): (r: bool)
    ensures r <==> exists k: nat :: DecidedAt(a, b, k)
    decreases |a|
  {
    if |b| == 0 then
      assert forall k: nat :: !DecidedAt(a, b, k);
      false
    else if |a| == 0 then
      assert DecidedAt(a, b, 0);
      true
    else if a[0] != b[0] then
      assert DecidedAt(a, b, 0) <==> a[0] < b[0];
      a[0] < b[0]
    else
      var r := Below(a[1..], b[1..]);
      assert r ==> exists k: nat :: DecidedAt(a, b, k) by {
        if r {
          var k: nat :| DecidedAt(a[1..], b[1..], k);
          assert a[..k + 1] == [a[0]] + a[1..][..k];
          assert b[..k + 1] == [b[0]] + b[1..][..k];
          assert DecidedAt(a, b, k + 1);
        }
      }
      assert (exists k: nat :: DecidedAt(a, b, k)) ==> r by {
        if exists k: nat :: DecidedAt(a, b, k) {
          var k: nat :| DecidedAt(a, b, k);
          assert k > 0;
          assert a[1..][..k - 1] == a[..k][1..];
          assert b[1..][..k - 1] == b[..k][1..];
          assert DecidedAt(a[1..], b[1..], k - 1);
        }
      }
      r
  }

  lemma {:induction false} BelowIrreflexive(a: string)
    ensures !Below(a, a)
    decreases |a|
  {
    if |a| > 0 {
      BelowIrreflexive(a[1..]);
    }
  }

  lemma {:induction false} BelowTransitive(a: string, b: string, c: string)
    requires Below(a, b) && Below(b, c)
    ensures Below(a, c)
    decreases |a|
  {
    if |a| > 0 && a[0] == b[0] && b[0] == c[0] {
      BelowTransitive(a[1..], b[1..], c[1..]);
    }
  }

  lemma {:induction false} BelowAsymmetric(a: string, b: string)
    requires Below(a, b)
    ensures !Below(b, a)
    decreases |a|
  {
    if |a| > 0 && a[0] == b[0] {
      BelowAsymmetric(a[1..], b[1..]);
    }
  }

  /** Any two distinct names are ordered one way or the other. */
  lemma {:induction false} BelowTotal(a: string, b: string)
    ensures a == b || Below(a, b) || Below(b, a)
    decreases |a|
  {
    if |a| > 0 && |b| > 0 && a[0] == b[0] {
      BelowTotal(a[1..], b[1..]);
      if a[1..] == b[1..] {
        assert a == [a[0]] + a[1..] && b == [b[0]] + b[1..];
      }
    }
  }

  /** A name sorts before every proper extension of it (`n < n + ".zip"`). */
  lemma {:induction false} BelowExtension(a: string, s: string)
    requires |s| > 0
    ensures Below(a, a + s)
    decreases |a|
  {
    if |a| > 0 {
      assert (a + s)[1..] == a[1..] + s;
      BelowExtension(a[1..], s);
    }
  }

  /** Comparing two strings with a common prefix compares what follows it. */
  lemma {:induction false} BelowCommonPrefix(p: string, a: string, b: string)
    ensures Below(p + a, p + b) <==> Below(a, b)
    decreases |p|
  {
    if |p| > 0 {
      assert (p + a)[1..] == p[1..] + a;
      assert (p + b)[1..] == p[1..] + b;
      BelowCommonPrefix(p[1..], a, b);
    } else {
      assert p + a == a && p + b == b;
    }
  }

  /**
   * Two concatenations whose first pieces have the same width compare as
   * pairs: first by the first piece, then by the second.
   */
  lemma {:induction false} BelowConcat(a1: string, b1: string, a2: string, b2: string)
    requires |a1| == |a2|
    ensures Below(a1 + b1, a2 + b2) <==> Below(a1, a2) || (a1 == a2 && Below(b1, b2))
    decreases |a1|
  {
    if |a1| == 0 {
      assert a1 + b1 == b1 && a2 + b2 == b2;
    } else {
      assert (a1 + b1)[1..] == a1[1..] + b1;
      assert (a2 + b2)[1..] == a2[1..] + b2;
      BelowConcat(a1[1..], b1, a2[1..], b2);
      if a1[0] == a2[0] && a1[1..] == a2[1..] {
        assert a1 == [a1[0]] + a1[1..] && a2 == [a2[0]] + a2[1..];
      }
      if a1 == a2 {
        BelowIrreflexive(a1);
      }
    }
  }

  /** Strictly increasing: sorted and free of duplicates. */
  predicate StrictlySorted(s: seq<string>)
  {
    forall i, j :: 0 <= i < j < |s| ==> Below(s[i], s[j])
  }

  function Elements(s: seq<string>): set<string>
  {
    set x | x in s
  }

  /** Inserts a name into a strictly sorted list, as `sorted` would place it. */
  function Insert(x: string, s: seq<string>): (r: seq<string>)
    requires StrictlySorted(s)
    ensures StrictlySorted(r)
    ensures Elements(r) == Elements(s) + {x}
    ensures |r| == if x in Elements(s) then |s| else |s| + 1
  {
    if s == [] then
      [x]
    else
      BelowTotal(x, s[0]);
      if x == s[0] then
        s
      else if Below(x, s[0]) then
        InsertFront(x, s);
        [x] + s
      else
        var rest := Insert(x, s[1..]);
        assert s == [s[0]] + s[1..];
        assert forall y :: y in rest ==> Below(s[0], y) by {
          forall y | y in rest
            ensures Below(s[0], y)
          {
            assert y in Elements(rest);
            if y != x {
              assert y in Elements(s[1..]);
              var k :| 0 <= k < |s[1..]| && s[1..][k] == y;
              assert s[k + 1] == y;
            }
          }
        }
        assert Elements([s[0]] + rest) == {s[0]} + Elements(rest) by {
          assert forall y :: y in [s[0]] + rest <==> y == s[0] || y in rest;
        }
        assert Elements(s) == {s[0]} + Elements(s[1..]) by {
          assert forall y :: y in s <==> y == s[0] || y in s[1..];
        }
        [s[0]] + rest
  }

  lemma InsertFront(x: string, s: seq<string>)
    requires StrictlySorted(s) && |s| > 0 && Below(x, s[0])
    ensures StrictlySorted([x] + s)
    ensures x !in Elements(s)
  {
    forall j | 0 <= j < |s|
      ensures Below(x, s[j])
    {
      if j > 0 {
        BelowTransitive(x, s[0], s[j]);
      }
    }
    BelowIrreflexive(x);
  }

  /**
   * A strictly sorted list is determined by its elements: whatever order the
   * directory listing comes in, `sorted` produces the same list.
   */
  lemma {:induction false} SortedUnique(a: seq<string>, b: seq<string>)
    requires StrictlySorted(a) && StrictlySorted(b)
    requires Elements(a) == Elements(b)
    ensures a == b
    decreases |a|
  {
    assert (a == []) == (b == []) by {
      if a != [] { assert a[0] in Elements(b); }
      if b != [] { assert b[0] in Elements(a); }
    }
    if a != [] {
      assert a[0] in Elements(b) && b[0] in Elements(a);
      var i :| 0 <= i < |b| && b[i] == a[0];
      var j :| 0 <= j < |a| && a[j] == b[0];
      if a[0] != b[0] {
        assert i > 0 && j > 0;
        BelowAsymmetric(b[0], b[i]);
      }
      assert a == [a[0]] + a[1..] && b == [b[0]] + b[1..];
      forall x | x in a[1..] ensures x in b[1..] {
        var k :| 0 <= k < |a[1..]| && a[1..][k] == x;
        assert Below(a[0], a[k + 1]);
        BelowIrreflexive(x);
        assert x in Elements(a);
      }
      forall x | x in b[1..] ensures x in a[1..] {
        var k :| 0 <= k < |b[1..]| && b[1..][k] == x;
        assert Below(b[0], b[k + 1]);
        BelowIrreflexive(x);
        assert x in Elements(b);
      }
      assert Elements(a[1..]) == Elements(b[1..]);
      SortedUnique(a[1..], b[1..]);
      assert a == [a[0]] + a[1..] && b == [b[0]] + b[1..];
    }
  }

  /** Every finite set of names has a strictly sorted enumeration. */
  lemma {:induction false} SortExists(s: set<string>)
    ensures exists l :: StrictlySorted(l) && Elements(l) == s
    decreases |s|
  {
    if s == {} {
      assert StrictlySorted([]) && Elements([]) == s;
    } else {
      var x :| x in s;
      SortExists(s - {x});
      var l :| StrictlySorted(l) && Elements(l) == s - {x};
      var r := Insert(x, l);
      assert StrictlySorted(r) && Elements(r) == s;
    }
  }

  /** `sorted(s)` for a set of distinct names. */
  ghost function SortedList(s: set<string>): (l: seq<string>)
    ensures StrictlySorted(l) && Elements(l) == s
  {
    SortExists(s);
    var l :| StrictlySorted(l) && Elements(l) == s;
    l
  }
}

=== FILE: pipeline.dfy ===
/**
 * One run of the tool (`main` after argument parsing) as the composition of
 * its steps, and what can be said about runs as a whole.
 */
module Pipeline {
  import opened FileSystem
  import opened NameOrder
  import opened SnapshotNames
  import opened SnapshotBuilder
  import opened Archiver
  import opened Retention

  /** What a run reports. */
  datatype Report =
    | SourceMissing                   // logged as an error; nothing else happens
    | Failed                          // an exception escaped one of the steps
    | Completed(snapshot: string, copied: nat, skipped: nat, rotated: seq<string>)

  datatype RunOutcome = RunOutcome(root: Root, report: Report)

  /**
   * The archiver, when asked for. Without archiving, or in a dry run,
   * nothing changes. Otherwise it fails exactly when `<name>.zip` is a
   * directory, and on success it leaves a zip archive there. Either way no
   * other entry changes.
   */
  function ArchiveStep(root: Root, name: string, dryRun: bool, archive: bool): (out: Progress)
    ensures !archive || dryRun ==> out == Progress(root, true)
    ensures out.ok <==> !(archive && !dryRun && ZipName(name) in root && root[ZipName(name)].Dir?)
    ensures archive && !dryRun && out.ok ==> ZipName(name) in out.root && out.root[ZipName(name)].Archive?
    ensures SameExcept(out.root, root, {ZipName(name)})
  {
    if archive then CompressSpec(root, name, dryRun) else Progress(root, true)
  }

  /**
   * `main`: abort if the source is missing, then the snapshot builder (with
   * the latest-pointer update), then the archiver when asked for, then
   * rotation. An exception in any step ends the run where it stands.
   */
  ghost function RunSpec(root: Root, source: Option<Tree>, stamp: Timestamp, dryRun: bool,
                         archive: bool, keep: int): (out: RunOutcome)
    requires ValidTimestamp(stamp)
    ensures source.None? ==> out.root == root && out.report == SourceMissing
    ensures source.Some? && dryRun ==> out.root == root && out.report.Completed?
    ensures out.report.Completed? ==>
      && source.Some?
      && out.report.snapshot == SnapshotName(stamp)
      && out.report.copied == |ChangedPaths(source.value, Reference(root))|
      && out.report.skipped == |SkippedPaths(source.value, Reference(root))|
  {
    if source.None? then
      RunOutcome(root, SourceMissing)
    else
      var name := SnapshotName(stamp);
      AfterBackup(BackupSpec(root, source.value, name, dryRun), name, dryRun, archive, keep)
  }

  /**
   * The rest of `main` once `incremental_backup` has returned or raised:
   * archive when asked for, then rotate. A completed run reports the
   * snapshot name, the backup's counters and the rotation's selection, and
   * leaves the destination rotation left.
   */
  ghost function AfterBackup(built: BackupOutcome, name: string, dryRun: bool, archive: bool, keep: int): (out: RunOutcome)
    ensures built.Aborted? ==> out == RunOutcome(built.root, Failed)
    ensures out.report.Completed? <==>
      && built.Built?
      && ArchiveStep(built.root, name, dryRun, archive).ok
      && RotateSpec(ArchiveStep(built.root, name, dryRun, archive).root, keep, dryRun).ok
    ensures out.report.Completed? ==>
      var archived := ArchiveStep(built.root, name, dryRun, archive).root;
      && out.root == RotateSpec(archived, keep, dryRun).root
      && out.report == Completed(name, built.copied, built.skipped, Selection(archived, keep))
  {
    if built.Aborted? then
      RunOutcome(built.root, Failed)
    else
      var archived := ArchiveStep(built.root, name, dryRun, archive);
      if !archived.ok then
        RunOutcome(archived.root, Failed)
      else
        var rotated := RotateSpec(archived.root, keep, dryRun);
        if !rotated.ok then
          RunOutcome(rotated.root, Failed)
        else
          RunOutcome(rotated.root, Completed(name, built.copied, built.skipped, Selection(archived.root, keep)))
  }

  /**
   * A dry run changes nothing, yet reports what a real run would copy and
   * skip. Its preview of rotation is taken over the snapshots that already
   * exist, since the new one was never created.
   */
  lemma DryRunChangesNothing(root: Root, source: Tree, stamp: Timestamp, archive: bool, keep: int)
    requires ValidTimestamp(stamp)
    ensures var out := RunSpec(root, Some(source), stamp, true, archive, keep);
      && out.root == root
      && out.report == Completed(SnapshotName(stamp), |ChangedPaths(source, Reference(root))|,
                                 |SkippedPaths(source, Reference(root))|, Selection(root, keep))
  {
    DryRunRemovesNothing(root, Selection(root, keep));
  }

  /** A name ending in `.zip` is the only kind that can be the archive of a snapshot. */
  lemma NoArchiveOf(k: string, list: seq<string>)
    requires |k| >= |ZipSuffix| && k[|k| - |ZipSuffix|..] != ZipSuffix
    ensures !IsZipOf(k, list)
  {
  }

  /**
   * The destination a fresh snapshot and the optional archive leave for
   * rotation: the snapshot and `latest` both hold the mirrored tree, and the
   * rotation candidates are the earlier ones plus the new snapshot.
   */
  lemma FreshSnapshotBeforeRotation(root: Root, source: Tree, stamp: Timestamp, archive: bool)
    requires ValidTimestamp(stamp) && SnapshotName(stamp) !in root
    requires BackupSpec(root, source, SnapshotName(stamp), false).Built?
    requires ArchiveStep(BackupSpec(root, source, SnapshotName(stamp), false).root, SnapshotName(stamp), false, archive).ok
    ensures var name := SnapshotName(stamp);
      var archived := ArchiveStep(BackupSpec(root, source, name, false).root, name, false, archive).root;
      var snapshot := Dir(Mirror(EmptyTree, source, Reference(root)), false);
      && name in archived && archived[name] == snapshot
      && LatestName in archived && archived[LatestName] == snapshot
      && Candidates(archived) == Candidates(root) + {name}
  {
    var name := SnapshotName(stamp);
    var built := BackupSpec(root, source, name, false);
    FreshBuild(root, source, name);
    CandidatesGain(root, ArchiveStep(built.root, name, false, archive).root, name);
  }

  /** A fresh snapshot and `latest` both hold the mirrored tree; nothing else changes. */
  lemma FreshBuild(root: Root, source: Tree, name: string)
    requires name != LatestName && name !in root
    requires BackupSpec(root, source, name, false).Built?
    ensures var snapshot := Dir(Mirror(EmptyTree, source, Reference(root)), false);
      BackupSpec(root, source, name, false).root == root[name := snapshot][LatestName := snapshot]
  {
  }

  /**
   * Adding a new snapshot directory while changing only `latest` and the
   * snapshot's archive (and not whether the archive is a directory) adds
   * exactly that snapshot to the rotation candidates.
   */
  lemma CandidatesGain(root: Root, after: Root, name: string)
    requires StartsWith(name, SnapshotPrefix) && name !in root && name in after && after[name].Dir?
    requires SameExcept(after, root, {name, LatestName, ZipName(name)})
    requires ZipName(name) in after && after[ZipName(name)].Dir? <==> ZipName(name) in root && root[ZipName(name)].Dir?
    ensures Candidates(after) == Candidates(root) + {name}
  {
    forall k
      ensures k in Candidates(after) <==> k in Candidates(root) + {name}
    {
      if k != name && k != LatestName && k != ZipName(name) {
        assert k in after <==> k in root;
      }
    }
  }

  /**
   * A rotation that completes never touches `latest`, and with a positive
   * `keep` it leaves a snapshot newer than every other one in place.
   */
  lemma RotationSpares(root: Root, keep: int, stamp: Timestamp)
    requires ValidTimestamp(stamp) && RotateSpec(root, keep, false).ok
    ensures var out := RotateSpec(root, keep, false).root;
      && (LatestName in root ==> LatestName in out && out[LatestName] == root[LatestName])
      && (var name := SnapshotName(stamp);
          keep > 0 && name in Candidates(root) && (forall n :: n in Candidates(root) && n != name ==> Below(n, name)) ==>
          name in out && out[name] == root[name])
  {
    var list := Selection(root, keep);
    NoArchiveOf(LatestName, list);
    var name := SnapshotName(stamp);
    if keep > 0 && name in Candidates(root) && (forall n :: n in Candidates(root) && n != name ==> Below(n, name)) {
      NewestIsKept(root, keep, name);
      NoArchiveOf(name, list);
    }
  }

  /**
   * What a completed real run whose snapshot name was new leaves behind:
   *  - `latest` is a plain directory holding the source's directories and
   *    the files this run copied, whatever rotation removed;
   *  - rotation chose among the snapshots that existed plus the new one;
   *  - with a positive `keep` and a snapshot newer than every existing one,
   *    the new snapshot survives rotation and equals `latest`.
   */
  lemma CompletedRunFacts(root: Root, source: Tree, stamp: Timestamp, archive: bool, keep: int)
    requires ValidTimestamp(stamp) && SnapshotName(stamp) !in root
    requires RunSpec(root, Some(source), stamp, false, archive, keep).report.Completed?
    ensures var name, out := SnapshotName(stamp), RunSpec(root, Some(source), stamp, false, archive, keep);
      var snapshot := Dir(Mirror(EmptyTree, source, Reference(root)), false);
      && LatestName in out.root && out.root[LatestName] == snapshot
      && out.report.rotated == SelectForRemoval(SortedList(Candidates(root) + {name}), keep)
      && (keep > 0 && (forall n :: n in Candidates(root) ==> Below(n, name)) ==>
            name in out.root && out.root[name] == snapshot)
  {
    var name := SnapshotName(stamp);
    var built := BackupSpec(root, source, name, false);
    var archived := ArchiveStep(built.root, name, false, archive);
    FreshSnapshotBeforeRotation(root, source, stamp, archive);
    RotationSpares(archived.root, keep, stamp);
  }

  /**
   * `latest` holds only the files the last run copied, so two real runs in
   * a row over an unchanged source alternate: the second copies exactly as
   * many files as the first skipped, and skips as many as the first copied.
   */
  lemma {:induction false} ConsecutiveRunsAlternate(root: Root, source: Tree, first: Timestamp, second: Timestamp,
                                                    dryRun: bool, archive: bool, keep: int)
    requires ValidTimestamp(first) && ValidTimestamp(second) && SnapshotName(first) !in root
    requires RunSpec(root, Some(source), first, false, archive, keep).report.Completed?
    ensures var one := RunSpec(root, Some(source), first, false, archive, keep);
      var two := RunSpec(one.root, Some(source), second, dryRun, archive, keep);
      two.report.Completed? ==>
        two.report.copied == one.report.skipped && two.report.skipped == one.report.copied
  {
    var one := RunSpec(root, Some(source), first, false, archive, keep);
    CompletedRunFacts(root, source, first, archive, keep);
    assert Reference(one.root) == Some(Mirror(EmptyTree, source, Reference(root)));
    NextRunCopiesWhatWasSkipped(source, Reference(root));
  }

  /**
   * Rotation goes by age: with a positive `keep`, every snapshot a run
   * removes was created before every snapshot it keeps.
   */
  lemma ChronologicalRetention(root: Root, keep: int, older: Timestamp, newer: Timestamp)
    requires keep > 0 && ValidTimestamp(older) && ValidTimestamp(newer)
    requires SnapshotName(older) in Selection(root, keep)
    requires SnapshotName(newer) in Candidates(root) && SnapshotName(newer) !in Selection(root, keep)
    ensures Before(older, newer)
  {
    var s := SortedList(Candidates(root));
    var k := |Selection(root, keep)|;
    KeepsNewest(s, keep);
    var i :| 0 <= i < k && s[i] == SnapshotName(older);
    assert SnapshotName(newer) in Elements(s);
    var j :| 0 <= j < |s| && s[j] == SnapshotName(newer);
    assert j >= k;
    NameOrderIsChronological(older, newer);
  }
}

=== FILE: retention.dfy ===
/**
 * Specification of the retention step (`rotate_backups`): which snapshot
 * directories are selected, and what removing them (with their archives)
 * leaves in the destination.
 */
module Retention {
  import opened FileSystem
  import opened NameOrder
  import opened SnapshotBuilder

  /**
   * The rotation candidates: children that are directories (or links to
   * directories) and whose name starts with `backup_`.
   */
  function Candidates(root: Root): (c: set<string>)
    ensures LatestName !in c
    ensures forall n :: n in c ==> n in root && root[n].Dir? && StartsWith(n, SnapshotPrefix)
    ensures forall n :: n in root && root[n].Dir? && StartsWith(n, SnapshotPrefix) ==> n in c
  {
    assert !StartsWith(LatestName, SnapshotPrefix) by {
      assert LatestName[0] != SnapshotPrefix[0];
    }
    set n | n in root && root[n].Dir? && StartsWith(n, SnapshotPrefix)
  }

  /** Where Python's slice `a[:stop]` ends on a list of length `len`. */
  function SliceEnd(len: nat, stop: int): (k: nat)
    ensures k <= len
    ensures stop >= 0 ==> k == stop || (k == len && len < stop)
    ensures stop < 0 ==> k - stop == len || (k == 0 && len < -stop)
  {
    if stop >= 0 then
      if stop <= len then stop else len
    else if len + stop >= 0 then
      len + stop
    else
      0
  }

  /**
   * How many of `len` sorted snapshots `backups[:-keep]` removes, once the
   * count exceeds `keep`. A positive `keep` keeps the newest `keep`;
   * `keep == 0` makes the slice `[:-0]`, which is empty.
   */
  function RemoveCount(len: nat, keep: int): (k: nat)
    ensures k <= len
    ensures keep > 0 ==> k == if len <= keep then 0 else len - keep
    ensures keep == 0 ==> k == 0
    ensures keep < 0 ==> k == if len <= -keep then len else -keep
  {
    if len <= keep then 0 else SliceEnd(len, -keep)
  }

  /** `remove_list`: a prefix of the sorted snapshot names. */
  function SelectForRemoval(sorted: seq<string>, keep: int): (s: seq<string>)
    ensures |s| <= |sorted| && s == sorted[..|s|]
    ensures keep > 0 ==> |sorted| - |s| == if |sorted| <= keep then |sorted| else keep
    ensures keep == 0 ==> s == []
    ensures keep < 0 ==> |s| == if |sorted| <= -keep then |sorted| else -keep
  {
    sorted[..RemoveCount(|sorted|, keep)]
  }

  /**
   * The selection `rotate_backups` computes on a destination: strictly
   * sorted candidates, each of which sorts before every candidate left out.
   */
  ghost function Selection(root: Root, keep: int): (s: seq<string>)
    ensures StrictlySorted(s)
    ensures forall n :: n in s ==> n in Candidates(root)
    ensures forall n, m :: n in s && m in Candidates(root) && m !in s ==> Below(n, m)
  {
    var sorted := SortedList(Candidates(root));
    PrefixFacts(sorted, RemoveCount(|sorted|, keep));
    SelectForRemoval(sorted, keep)
  }

  /** A prefix of a strictly sorted list sorts before the rest of it. */
  lemma PrefixFacts(sorted: seq<string>, k: nat)
    requires StrictlySorted(sorted) && k <= |sorted|
    ensures StrictlySorted(sorted[..k])
    ensures forall n :: n in sorted[..k] ==> n in Elements(sorted)
    ensures forall n, m :: n in sorted[..k] && m in Elements(sorted) && m !in sorted[..k] ==> Below(n, m)
  {
    forall n, m | n in sorted[..k] && m in Elements(sorted) && m !in sorted[..k]
      ensures Below(n, m)
    {
      var i :| 0 <= i < k && sorted[i] == n;
      var j :| 0 <= j < |sorted| && sorted[j] == m;
      assert j >= k;
    }
  }

  /**
   * With a positive `keep`, the names kept are the `keep` greatest (all of
   * them when there are no more than `keep`), and every removed name sorts
   * before every kept one.
   */
  lemma KeepsNewest(sorted: seq<string>, keep: int)
    requires StrictlySorted(sorted) && keep > 0
    ensures var k := |SelectForRemoval(sorted, keep)|;
      && |sorted| - k == (if |sorted| <= keep then |sorted| else keep)
      && forall i, j :: 0 <= i < k <= j < |sorted| ==> Below(sorted[i], sorted[j])
  {
  }

  /**
   * With a positive `keep`, a snapshot that sorts after every other
   * candidate is never selected: the newest snapshot always survives.
   */
  lemma NewestIsKept(root: Root, keep: int, name: string)
    requires keep > 0 && name in Candidates(root)
    requires forall n :: n in Candidates(root) && n != name ==> Below(n, name)
    ensures name !in Selection(root, keep)
  {
    var s := SortedList(Candidates(root));
    var k := RemoveCount(|s|, keep);
    assert name in Elements(s);
    var last := |s| - 1;
    assert k <= last;
    forall i | 0 <= i < k
      ensures s[i] != name
    {
      assert Below(s[i], s[last]);
      if s[last] != name {
        assert s[last] in Elements(s);
        BelowTransitive(s[i], s[last], name);
      }
      BelowIrreflexive(name);
    }
  }

  /** `k` is the archive of some name in `list`: that name with `.zip` appended (line 124). */
  predicate IsZipOf(k: string, list: seq<string>)
    ensures IsZipOf(k, list) <==> exists n :: n in list && k == ZipName(n)
  {
    assert forall n :: n in list && k == ZipName(n) ==> k[..|k| - |ZipSuffix|] == n;
    |k| >= |ZipSuffix| && k[|k| - |ZipSuffix|..] == ZipSuffix && k[..|k| - |ZipSuffix|] in list
  }

  /** The destination once every name in `list` and its archive are gone. */
  function Remaining(root: Root, list: seq<string>): (r: Root)
    ensures forall k :: k in r <==> k in root && k !in list && !IsZipOf(k, list)
    ensures forall k :: k in r ==> r[k] == root[k]
  {
    map k | k in root && k !in list && !IsZipOf(k, list) :: root[k]
  }

  /**
   * One iteration of the removal loop: `rmtree(folder)` (which fails unless
   * the folder is an existing directory that is not a link), then, if
   * `<folder>.zip` exists, `unlink` it (which fails on a directory).
   * A dry run removes nothing and never fails.
   */
  function RemoveSnapshot(root: Root, name: string, dryRun: bool): (out: Progress)
    ensures SameExcept(out.root, root, {name, ZipName(name)})
    ensures forall k :: k in out.root ==> k in root && out.root[k] == root[k]
  {
    var zip := ZipName(name);
    if dryRun then
      Progress(root, true)
    else if !(name in root && IsRealDir(root[name])) then
      Progress(root, false)
    else
      var rest := root - {name};
      if zip !in rest then
        Progress(rest, true)
      else if IsRealDir(rest[zip]) then
        Progress(rest, false)
      else
        Progress(rest - {zip}, true)
  }

  /**
   * The removal loop over `list`, stopping at the first exception. Whether
   * or not it completes, it only removes entries, and every entry that is
   * neither a listed name nor the archive of one is still there, unchanged.
   */
  function RemoveAll(root: Root, list: seq<string>, dryRun: bool): (out: Progress)
    ensures forall k :: k in out.root ==> k in root && out.root[k] == root[k]
    ensures forall k :: k in root && k !in list && !IsZipOf(k, list) ==> k in out.root
    decreases |list|
  {
    if list == [] then
      Progress(root, true)
    else
      var before := RemoveAll(root, list[..|list| - 1], dryRun);
      UnlistedStep(list);
      if !before.ok then before else RemoveSnapshot(before.root, list[|list| - 1], dryRun)
  }

  /** A name that is not listed, nor the archive of a listed name, is neither for the shorter list nor for the last name. */
  lemma UnlistedStep(list: seq<string>)
    requires |list| > 0
    ensures var front, last := list[..|list| - 1], list[|list| - 1];
      forall k :: k !in list && !IsZipOf(k, list) ==>
        k !in front && !IsZipOf(k, front) && k != last && k != ZipName(last)
  {
    var front, last := list[..|list| - 1], list[|list| - 1];
    assert list == front + [last];
    forall k | k !in list && !IsZipOf(k, list)
      ensures k !in front && !IsZipOf(k, front) && k != last && k != ZipName(last)
    {
      IsZipOfAppend(k, front, last);
    }
  }

  /**
   * `rotate_backups`, as a whole. A dry run neither changes nor fails.
   * Otherwise it completes exactly when no selected snapshot is blocked,
   * and it then removes the selected directories and their archives and
   * leaves every other entry as it was.
   */
  ghost function RotateSpec(root: Root, keep: int, dryRun: bool): (out: Progress)
    ensures dryRun ==> out == Progress(root, true)
    ensures !dryRun ==> (out.ok <==> forall n :: n in Selection(root, keep) ==> !Blocked(root, n))
    ensures !dryRun && out.ok ==> out.root == Remaining(root, Selection(root, keep))
  {
    DryRunRemovesNothing(root, Selection(root, keep));
    RemoveAllOutcome(root, Selection(root, keep));
    RemoveAll(root, Selection(root, keep), dryRun)
  }

  /** Why removing `name` raises: it is not a plain directory, or its archive is one. */
  predicate Blocked(root: Root, name: string)
    ensures Blocked(root, name) <==> !RemoveSnapshot(root, name, false).ok
  {
    || !(name in root && IsRealDir(root[name]))
    || (ZipName(name) in root && IsRealDir(root[ZipName(name)]))
  }

  /** Once the loop has raised, the later names are never reached. */
  lemma {:induction false} RemoveAllStops(root: Root, list: seq<string>, i: nat, dryRun: bool)
    requires i <= |list| && !RemoveAll(root, list[..i], dryRun).ok
    ensures RemoveAll(root, list, dryRun) == RemoveAll(root, list[..i], dryRun)
    decreases |list|
  {
    if i < |list| {
      assert list[..|list| - 1][..i] == list[..i];
      RemoveAllStops(root, list[..|list| - 1], i, dryRun);
    } else {
      assert list[..i] == list;
    }
  }

  /** A dry run selects but removes nothing. */
  lemma {:induction false} DryRunRemovesNothing(root: Root, list: seq<string>)
    ensures RemoveAll(root, list, true) == Progress(root, true)
    decreases |list|
  {
    if list != [] {
      DryRunRemovesNothing(root, list[..|list| - 1]);
    }
  }

  lemma IsZipOfAppend(k: string, list: seq<string>, name: string)
    ensures IsZipOf(k, list + [name]) <==> IsZipOf(k, list) || k == ZipName(name)
  {
    if k == ZipName(name) {
      assert k[..|k| - |ZipSuffix|] == name;
      assert k[|k| - |ZipSuffix|..] == ZipSuffix;
    }
    if |k| >= |ZipSuffix| && k[|k| - |ZipSuffix|..] == ZipSuffix && k[..|k| - |ZipSuffix|] == name {
      assert k == k[..|k| - |ZipSuffix|] + k[|k| - |ZipSuffix|..];
    }
  }

  /**
   * What the earlier iterations cannot have touched when the loop reaches
   * `name`: the list is sorted, so `name` and `<name>.zip` sort after every
   * earlier name and are neither one of them nor the archive of one, unless
   * `name` is itself the archive of an earlier name, which makes it blocked.
   */
  lemma StepFacts(root: Root, front: seq<string>, name: string)
    requires StrictlySorted(front + [name])
    requires forall n :: n in front ==> !Blocked(root, n)
    ensures name !in front
    ensures ZipName(name) !in front && !IsZipOf(ZipName(name), front)
    ensures !Blocked(root, name) ==> !IsZipOf(name, front)
  {
    var list, zip := front + [name], ZipName(name);
    forall m | m in front
      ensures Below(m, name)
    {
      var i :| 0 <= i < |front| && front[i] == m;
      assert list[i] == m && list[|front|] == name;
    }
    BelowIrreflexive(name);
    BelowExtension(name, ZipSuffix);
    if zip in front {
      BelowAsymmetric(zip, name);
    }
    assert zip[..|zip| - |ZipSuffix|] == name;
    if IsZipOf(name, front) {
      var m := name[..|name| - |ZipSuffix|];
      assert name == m + ZipSuffix;
      assert !Blocked(root, m);
    }
  }

  /** One more iteration, from the closed form for the earlier names. */
  lemma RemoveStep(root: Root, front: seq<string>, name: string)
    requires StrictlySorted(front + [name])
    requires forall n :: n in front ==> !Blocked(root, n)
    ensures RemoveSnapshot(Remaining(root, front), name, false).ok <==> !Blocked(root, name)
    ensures !Blocked(root, name) ==>
      RemoveSnapshot(Remaining(root, front), name, false).root == Remaining(root, front + [name])
  {
    StepFacts(root, front, name);
    var after := RemoveSnapshot(Remaining(root, front), name, false);
    if !Blocked(root, name) {
      forall k
        ensures k in after.root <==> k in Remaining(root, front + [name])
      {
        IsZipOfAppend(k, front, name);
      }
    }
  }

  /**
   * The removal loop over a strictly sorted list, in closed form: it
   * completes exactly when no selected name is blocked, and it then leaves
   * the destination without the selected directories and their archives,
   * and with every other entry as it was.
   */
  lemma {:induction false} RemoveAllOutcome(root: Root, list: seq<string>)
    requires StrictlySorted(list)
    ensures RemoveAll(root, list, false).ok <==> forall n :: n in list ==> !Blocked(root, n)
    ensures RemoveAll(root, list, false).ok ==> RemoveAll(root, list, false).root == Remaining(root, list)
    decreases |list|
  {
    if list == [] {
      assert Remaining(root, list) == root;
    } else {
      var front, name := list[..|list| - 1], list[|list| - 1];
      assert list == front + [name];
      RemoveAllOutcome(root, front);
      if RemoveAll(root, front, false).ok {
        RemoveStep(root, front, name);
      }
    }
  }
}

=== FILE: snapshotbuilder.dfy ===
/**
 * Specification of the snapshot builder and the latest-pointer update
 * (`incremental_backup`): which files a run copies, what the new snapshot
 * holds, and what `latest` holds afterwards.
 */
module SnapshotBuilder {
  import opened FileSystem
  import opened ChangeDetector

  /** The directory holding a relative path. */
  function Parent(p: Path): Path
    requires |p| > 0
  {
    p[..|p| - 1]
  }

  /**
   * A source tree as `os.walk` sees it: the root is not listed among the
   * sub-directories, every listed directory lies in the root or in another
   * listed one, and every file lies in the root or in a listed directory.
   */
  predicate WellFormed(t: Tree)
  {
    && [] !in t.dirs
    && (forall d :: d in t.dirs && |d| > 1 ==> Parent(d) in t.dirs)
    && forall p :: p in t.files ==> |p| > 0 && (Parent(p) == [] || Parent(p) in t.dirs)
  }

  /** The directories `os.walk` visits: the root, then every sub-directory. */
  function WalkDirs(t: Tree): (w: set<Path>)
    ensures [] in w && t.dirs <= w && w - {[]} <= t.dirs
    ensures WellFormed(t) ==> forall d :: d in w && d != [] ==> Parent(d) in w
  {
    {[]} + t.dirs
  }

  /** The files `os.walk` lists in directory `d`. */
  function FilesIn(t: Tree, d: Path): (s: set<Path>)
    ensures s <= t.files.Keys
    ensures forall p :: p in s ==> |p| > 0 && Parent(p) == d
    ensures forall p :: p in t.files && |p| > 0 && Parent(p) == d ==> p in s
    ensures WellFormed(t) && s != {} ==> d in WalkDirs(t)
  {
    set p | p in t.files && |p| > 0 && Parent(p) == d
  }

  /**
   * `previous_backup`: the tree under `latest` when `latest` is a directory
   * (or a link to one). A `latest` that is a regular file also "exists",
   * but every lookup below it fails, which is the same as having none.
   */
  function Reference(root: Root): (r: Option<Tree>)
    ensures r.Some? <==> LatestName in root && root[LatestName].Dir?
    ensures r.Some? ==> r.value == root[LatestName].tree
  {
    DirTree(root, LatestName)
  }

  /** The counterpart `prev_file` of a source file, when it exists as a file. */
  function ReferenceMeta(reference: Option<Tree>, p: Path): (m: Option<FileMeta>)
    ensures m.Some? <==> reference.Some? && p in reference.value.files
    ensures m.Some? ==> m.value == reference.value.files[p]
  {
    if reference.Some? && p in reference.value.files then Some(reference.value.files[p]) else None
  }

  /**
   * The copy decision of line 69: copy when there is no reference, or when
   * `file_changed` judges the file against its counterpart.
   * A file without a counterpart is copied; one with a counterpart is copied
   * exactly when it is strictly newer or its size differs.
   */
  function ShouldCopy(src: Tree, reference: Option<Tree>, p: Path): (copy: bool)
    requires p in src.files
    ensures ReferenceMeta(reference, p).None? ==> copy
    ensures ReferenceMeta(reference, p).Some? ==>
      (copy <==> src.files[p].mtime > ReferenceMeta(reference, p).value.mtime
                 || src.files[p].size != ReferenceMeta(reference, p).value.size)
  {
    reference.None? || FileChanged(src.files[p], ReferenceMeta(reference, p))
  }

  /** The files a run copies into the new snapshot. */
  function ChangedPaths(src: Tree, reference: Option<Tree>): (c: set<Path>)
    ensures c <= src.files.Keys
    ensures reference.None? ==> c == src.files.Keys
    ensures forall p :: p in src.files && ReferenceMeta(reference, p).None? ==> p in c
  {
    set p | p in src.files && ShouldCopy(src, reference, p)
  }

  /** The files a run skips as unchanged. */
  function SkippedPaths(src: Tree, reference: Option<Tree>): (s: set<Path>)
    ensures s !! ChangedPaths(src, reference)
    ensures forall p :: p in s ==> p in src.files && ReferenceMeta(reference, p).Some?
  {
    src.files.Keys - ChangedPaths(src, reference)
  }

  /**
   * Every source file is visited once and either copied or skipped:
   * `copied_files + skipped_files` is the number of files in the source.
   */
  lemma {:induction false} CountsCoverSource(src: Tree, reference: Option<Tree>)
    ensures |ChangedPaths(src, reference)| + |SkippedPaths(src, reference)| == |src.files|
  {
    var c, s := ChangedPaths(src, reference), SkippedPaths(src, reference);
    assert c + s == src.files.Keys;
    assert c * s == {};
    assert |c + s| == |c| + |s| - |c * s|;
    assert |src.files.Keys| == |src.files|;
  }

  /**
   * The files among `among` that a run copies, each with the source's
   * metadata (`copy2` keeps time and size).
   */
  function CopiedFiles(src: Tree, reference: Option<Tree>, among: set<Path>): (m: map<Path, FileMeta>)
    ensures m.Keys == among * ChangedPaths(src, reference)
    ensures forall p :: p in m ==> m[p] == src.files[p]
  {
    map p | p in among && p in src.files && ShouldCopy(src, reference, p) :: src.files[p]
  }

  /**
   * The snapshot directory once the walk is over: the tree `base` it started
   * from (empty for a fresh snapshot), every source directory, and every
   * copied file with the source's metadata.
   */
  function Mirror(base: Tree, src: Tree, reference: Option<Tree>): (t: Tree)
    ensures t.dirs == base.dirs + src.dirs
    ensures t.files.Keys == base.files.Keys + ChangedPaths(src, reference)
    ensures forall p :: p in ChangedPaths(src, reference) ==> t.files[p] == src.files[p]
    ensures forall p :: p in base.files && p !in ChangedPaths(src, reference) ==> t.files[p] == base.files[p]
  {
    Tree(base.dirs + src.dirs, base.files + CopiedFiles(src, reference, src.files.Keys))
  }

  /** The outcome of `incremental_backup`, with the destination it leaves. */
  datatype BackupOutcome =
    | Built(root: Root, copied: nat, skipped: nat)
    | Aborted(root: Root)   // an exception escaped; `root` is the state it left

  /**
   * `incremental_backup` into the snapshot directory `name`.
   *  - Dry run: nothing is created or removed; the counts are still reported.
   *  - Otherwise the creation at line 44 fails when `name` exists and is not
   *    a directory; an existing directory (a second run within the same
   *    second) is written into.
   *  - The walk mirrors every directory and copies the changed files.
   *  - Then `latest` is replaced by a copy of the snapshot.
   */
  function BackupSpec(root: Root, src: Tree, name: string, dryRun: bool): (out: BackupOutcome)
    requires name != LatestName
    ensures dryRun ==> out.Built? && out.root == root
    ensures out.Built? ==> out.copied == |ChangedPaths(src, Reference(root))|
    ensures out.Built? ==> out.skipped == |SkippedPaths(src, Reference(root))|
    ensures SameExcept(out.root, root, {name, LatestName})
    ensures !dryRun ==>
      (out.Aborted? <==> (name in root && !root[name].Dir?) || (LatestName in root && !root[LatestName].Dir?))
    ensures !dryRun && name in root && !root[name].Dir? ==> out.root == root
    ensures !dryRun && !(name in root && !root[name].Dir?) ==>
      var base := if name in root then root[name].tree else EmptyTree;
      var snapshot := Dir(Mirror(base, src, Reference(root)), name in root && root[name].isLink);
      && name in out.root && out.root[name] == snapshot
      && (out.Built? ==> out.root == root[name := snapshot][LatestName := Dir(snapshot.tree, false)])
      && (out.Aborted? ==> out.root == root[name := snapshot])
  {
    var reference := Reference(root);
    var copied, skipped := |ChangedPaths(src, reference)|, |SkippedPaths(src, reference)|;
    if dryRun then
      Built(root, copied, skipped)
    else if name in root && !root[name].Dir? then
      Aborted(root)
    else
      var base := if name in root then root[name].tree else EmptyTree;
      var isLink := name in root && root[name].isLink;
      var snapshot := Dir(Mirror(base, src, reference), isLink);
      var built := root[name := snapshot];
      assert LatestName in built <==> LatestName in root;
      assert LatestName in root ==> built[LatestName] == root[LatestName];
      var latest := LatestSpec(built, name);
      assert SameExcept(latest.root, root, {name, LatestName}) by {
        forall k | k !in {name, LatestName}
          ensures (k in latest.root <==> k in root) && (k in root ==> latest.root[k] == root[k])
        {
          assert k in built <==> k in root;
        }
      }
      if latest.ok then Built(latest.root, copied, skipped) else Aborted(latest.root)
  }

  datatype Progress = Progress(root: Root, ok: bool)

  /**
   * The latest-pointer update: an existing `latest` is removed (a link by
   * `unlink`, a directory by `rmtree`, which fails on a regular file), then
   * `copytree` makes `latest` a plain directory equal to the snapshot.
   */
  function LatestSpec(root: Root, name: string): (out: Progress)
    requires name in root && root[name].Dir? && name != LatestName
    ensures out.ok <==> (LatestName !in root || root[LatestName].Dir?)
    ensures out.ok ==> out.root == root[LatestName := Dir(root[name].tree, false)]
    ensures !out.ok ==> out.root == root
  {
    if LatestName in root && !root[LatestName].Dir? then
      Progress(root, false)
    else
      Progress(root[LatestName := Dir(root[name].tree, false)], true)
  }

  /**
   * What a run without a pre-existing snapshot directory of the same name
   * leaves behind: the snapshot holds exactly the source's directories and
   * the copied files, and `latest` is an exact copy of it, with nothing
   * left over from the previous `latest`.
   */
  lemma FreshSnapshotContents(root: Root, src: Tree, name: string)
    requires name != LatestName && name !in root
    requires LatestName !in root || root[LatestName].Dir?
    ensures var out := BackupSpec(root, src, name, false);
      && out.Built?
      && name in out.root && out.root[name].Dir? && !out.root[name].isLink
      && out.root[name].tree.dirs == src.dirs
      && out.root[name].tree.files.Keys == ChangedPaths(src, Reference(root))
      && (forall p :: p in out.root[name].tree.files ==> out.root[name].tree.files[p] == src.files[p])
      && LatestName in out.root && out.root[LatestName] == Dir(out.root[name].tree, false)
  {
    var out := BackupSpec(root, src, name, false);
    assert EmptyTree.dirs + src.dirs == src.dirs;
    assert EmptyTree.files.Keys + ChangedPaths(src, Reference(root)) == ChangedPaths(src, Reference(root));
  }

  /**
   * `latest` holds only the files the last run copied. So when the source
   * has not changed, the next run copies exactly the files the last one
   * skipped, and skips exactly the ones it copied.
   */
  lemma {:induction false} NextRunCopiesWhatWasSkipped(src: Tree, reference: Option<Tree>)
    ensures var latest := Some(Mirror(EmptyTree, src, reference));
      && ChangedPaths(src, latest) == SkippedPaths(src, reference)
      && SkippedPaths(src, latest) == ChangedPaths(src, reference)
  {
    var c := ChangedPaths(src, reference);
    var latest := Some(Mirror(EmptyTree, src, reference));
    assert latest.value.files.Keys == c;
    forall p | p in src.files
      ensures p in ChangedPaths(src, latest) <==> p !in c
    {
      if p in c {
        assert ReferenceMeta(latest, p) == Some(src.files[p]);
        CopyIsUnchanged(src.files[p]);
      } else {
        assert ReferenceMeta(latest, p).None?;
      }
    }
  }
}

=== FILE: snapshotnames.dfy ===
/**
 * Snapshot naming: `backup_` followed by the creation time formatted with
 * `%Y-%m-%d_%H-%M-%S`. Every field has a fixed width and is zero-padded,
 * which is what lets the retention step sort snapshots by name and get
 * them in chronological order.
 */
module SnapshotNames {
  import opened FileSystem
  import opened NameOrder

  /** A wall-clock time with second resolution, as `datetime.now()` yields it. */
  datatype Timestamp = Timestamp(year: nat, month: nat, day: nat, hour: nat, minute: nat, second: nat)

  /**
   * The range of times `strftime` renders at fixed width: four-digit years,
   * and the usual calendar and clock ranges.
   */
  predicate ValidTimestamp(t: Timestamp)
  {
    && 1000 <= t.year <= 9999
    && 1 <= t.month <= 12
    && 1 <= t.day <= 31
    && t.hour <= 23
    && t.minute <= 59
    && t.second <= 59
  }

  /** Chronological order: strictly earlier, compared field by field. */
  predicate Before(t1: Timestamp, t2: Timestamp)
  {
    || t1.year < t2.year
    || (t1.year == t2.year && t1.month < t2.month)
    || (t1.year == t2.year && t1.month == t2.month && t1.day < t2.day)
    || (t1.year == t2.year && t1.month == t2.month && t1.day == t2.day && t1.hour < t2.hour)
    || (t1.year == t2.year && t1.month == t2.month && t1.day == t2.day && t1.hour == t2.hour
        && t1.minute < t2.minute)
    || (t1.year == t2.year && t1.month == t2.month && t1.day == t2.day && t1.hour == t2.hour
        && t1.minute == t2.minute && t1.second < t2.second)
  }

  function Digit(d: nat): char
    requires d < 10
  {
    (48 + d) as char
  }

  /** `%02d`-style rendering of a number below 100. */
  function Pad2(n: nat): (s: string)
    requires n < 100
    ensures |s| == 2
  {
    [Digit(n / 10), Digit(n % 10)]
  }

  /** `%04d`-style rendering of a number below 10000. */
  function Pad4(n: nat): (s: string)
    requires n < 10000
    ensures |s| == 4
  {
    Pad2(n / 100) + Pad2(n % 100)
  }

  /** The `%H-%M-%S` part of a snapshot name. */
  function Clock(t: Timestamp): (s: string)
    requires ValidTimestamp(t)
    ensures |s| == 8
    ensures '0' <= s[|s| - 1] <= '9'
  {
    Pad2(t.hour) + ("-" + (Pad2(t.minute) + ("-" + Pad2(t.second))))
  }

  /** `strftime("%Y-%m-%d_%H-%M-%S")`, written right-nested field by field. */
  function Format(t: Timestamp): (s: string)
    requires ValidTimestamp(t)
    ensures |s| == 19
    ensures '0' <= s[|s| - 1] <= '9'
  {
    var s := Pad4(t.year) + ("-" + (Pad2(t.month) + ("-" + (Pad2(t.day) + ("_" + Clock(t))))));
    assert s[|s| - 1] == Clock(t)[7];
    s
  }

  /** The name of the snapshot directory created at time `t`. */
  function SnapshotName(t: Timestamp): (name: string)
    requires ValidTimestamp(t)
    ensures StartsWith(name, SnapshotPrefix) && |name| == |SnapshotPrefix| + 19
    ensures name != LatestName
    ensures name[|name| - |ZipSuffix|..] != ZipSuffix   // it never looks like an archive
  {
    assert |LatestName| == 6;
    assert ZipSuffix[|ZipSuffix| - 1] == 'p';
    SnapshotPrefix + Format(t)
  }

  lemma Pad2Order(x: nat, y: nat)
    requires x < 100 && y < 100
    ensures Below(Pad2(x), Pad2(y)) <==> x < y
  {
    var a, b := Pad2(x), Pad2(y);
    assert !Below(a[1..][1..], b[1..][1..]) by {
      assert b[1..][1..] == [];
    }
    assert Below(a[1..], b[1..]) <==> a[1] < b[1];
    assert Below(a, b) <==> a[0] < b[0] || (a[0] == b[0] && a[1] < b[1]);
    assert a[0] < b[0] <==> x / 10 < y / 10;
    assert a[1] < b[1] <==> x % 10 < y % 10;
    assert x == 10 * (x / 10) + x % 10 && y == 10 * (y / 10) + y % 10;
  }

  lemma Pad4Order(x: nat, y: nat)
    requires x < 10000 && y < 10000
    ensures Below(Pad4(x), Pad4(y)) <==> x < y
  {
    BelowConcat(Pad2(x / 100), Pad2(x % 100), Pad2(y / 100), Pad2(y % 100));
    Pad2Order(x / 100, y / 100);
    Pad2Order(x % 100, y % 100);
    Pad2Injective(x / 100, y / 100);
    assert x == 100 * (x / 100) + x % 100 && y == 100 * (y / 100) + y % 100;
  }

  lemma Pad2Injective(x: nat, y: nat)
    requires x < 100 && y < 100
    ensures Pad2(x) == Pad2(y) <==> x == y
  {
    if x != y {
      Pad2Order(x, y);
      Pad2Order(y, x);
      BelowIrreflexive(Pad2(x));
    }
  }

  lemma Pad4Injective(x: nat, y: nat)
    requires x < 10000 && y < 10000
    ensures Pad4(x) == Pad4(y) <==> x == y
  {
    if x != y {
      Pad4Order(x, y);
      Pad4Order(y, x);
      BelowIrreflexive(Pad4(x));
    }
  }

  /** One fixed-width field followed by a separator and the remaining fields. */
  lemma FieldStep(x1: string, x2: string, sep: string, r1: string, r2: string)
    requires |x1| == |x2|
    ensures Below(x1 + (sep + r1), x2 + (sep + r2)) <==> Below(x1, x2) || (x1 == x2 && Below(r1, r2))
  {
    BelowConcat(x1, sep + r1, x2, sep + r2);
    BelowCommonPrefix(sep, r1, r2);
  }

  /** Times of day compare as their `%H-%M-%S` renderings. */
  lemma {:induction false} ClockOrder(t1: Timestamp, t2: Timestamp)
    requires ValidTimestamp(t1) && ValidTimestamp(t2)
    ensures Below(Clock(t1), Clock(t2)) <==>
      || t1.hour < t2.hour
      || (t1.hour == t2.hour && t1.minute < t2.minute)
      || (t1.hour == t2.hour && t1.minute == t2.minute && t1.second < t2.second)
  {
    var s1 := "-" + Pad2(t1.second);
    var s2 := "-" + Pad2(t2.second);
    assert Below(s1, s2) <==> t1.second < t2.second by {
      BelowCommonPrefix("-", Pad2(t1.second), Pad2(t2.second));
      Pad2Order(t1.second, t2.second);
    }
    var mi1 := "-" + (Pad2(t1.minute) + s1);
    var mi2 := "-" + (Pad2(t2.minute) + s2);
    FieldStep(Pad2(t1.minute), Pad2(t2.minute), "-", s1, s2);
    Pad2Order(t1.minute, t2.minute);
    Pad2Injective(t1.minute, t2.minute);
    FieldStep(Pad2(t1.hour), Pad2(t2.hour), "-", Pad2(t1.minute) + s1, Pad2(t2.minute) + s2);
    Pad2Order(t1.hour, t2.hour);
    Pad2Injective(t1.hour, t2.hour);
  }

  /**
   * Sorting snapshot names is sorting snapshots by creation time: for
   * fixed-width names, name order and chronological order coincide.
   */
  lemma {:induction false} NameOrderIsChronological(t1: Timestamp, t2: Timestamp)
    requires ValidTimestamp(t1) && ValidTimestamp(t2)
    ensures Below(SnapshotName(t1), SnapshotName(t2)) <==> Before(t1, t2)
  {
    BelowCommonPrefix(SnapshotPrefix, Format(t1), Format(t2));
    ClockOrder(t1, t2);
    var d1 := "_" + Clock(t1);
    var d2 := "_" + Clock(t2);
    FieldStep(Pad2(t1.day), Pad2(t2.day), "_", Clock(t1), Clock(t2));
    Pad2Order(t1.day, t2.day);
    Pad2Injective(t1.day, t2.day);
    FieldStep(Pad2(t1.month), Pad2(t2.month), "-", Pad2(t1.day) + d1, Pad2(t2.day) + d2);
    Pad2Order(t1.month, t2.month);
    Pad2Injective(t1.month, t2.month);
    var m1 := "-" + (Pad2(t1.day) + d1);
    var m2 := "-" + (Pad2(t2.day) + d2);
    FieldStep(Pad4(t1.year), Pad4(t2.year), "-", Pad2(t1.month) + m1, Pad2(t2.month) + m2);
    Pad4Order(t1.year, t2.year);
    Pad4Injective(t1.year, t2.year);
  }

  /** Snapshots made at different seconds get different names. */
  lemma NamesDistinct(t1: Timestamp, t2: Timestamp)
    requires ValidTimestamp(t1) && ValidTimestamp(t2) && t1 != t2
    ensures SnapshotName(t1) != SnapshotName(t2)
  {
    assert Before(t1, t2) || Before(t2, t1);
    NameOrderIsChronological(t1, t2);
    NameOrderIsChronological(t2, t1);
    BelowIrreflexive(SnapshotName(t1));
  }
}
